=== FILE: README.md ===
# GymTracker request logic in Dafny

GymTracker is a social gym-attendance tracker. Users register, record one
"check-in" per day (optionally with a workout time) and browse a shared
monthly calendar of everybody's check-ins; administrators manage users; a
forgotten password is replaced through a 30-minute reset token.

This project models the decision logic of the server's route handlers and
the pure helpers of the two client components that drive them:

- `Dates`: the proleptic Gregorian calendar as the ECMAScript `Date` object
  computes it (MakeDay, section 21.4.1 of ECMA-262): month lengths with the
  leap-year rule, month overflow into the year, day 0 as the last day of the
  previous month, and the constructor's reading of years 0..99 as 1900..1999.
- `Schema`: the store as one immutable value. Users are keyed by id, reset
  tokens by token string, and the check-in ledger is a set of rows. The
  database constraints are predicates: one check-in per (user, day), unique
  emails and valid ledger days, combined as `Valid`.
- `Http`: responses (status and JSON payload). `Crash` stands for an
  exception the handler does not catch, which reaches the client as a 500
  with no JSON body.
- `CheckInRoute`, `ForgotPasswordRoute`, `ResetPasswordRoute`,
  `RegisterRoute`, `AdminUsersRoute`: each handler is a pure function
  `(store, caller, request fields, clock) -> (response, store')`. The month
  listing is a method, because it sorts.
- `CheckInButton`: the 24-hour to 12-hour conversion, the five-minute
  rounding, the zero padding, the "HH:MM P" label, the today-status test and
  the reaction to the server's answers.
- `GymCalendar`: the shown month and the navigation between months, the day
  cells, the listing query and the grouping of check-ins by day.

Collaborators the handlers cannot see become parameters:
- the session is an `Option<Session>` argument;
- the current day and the current time (milliseconds) are arguments;
- the id of a new user and the string of a new reset token are arguments that
  must not already be in use.

bcrypt is the symbolic, deterministic `Hash(p) = Bcrypt(12, p)`.

The model follows the code as written, including:
- Deleting a check-in that does not exist answers 500 "Could not delete
  check-in", not 404.
- Not every handler catches store failures:
  - reset-password when the token's owner row is gone, and admin PUT/DELETE on
    a missing id or (PUT) a clashing email, fail with an uncaught exception
    (`Crash`);
  - check-in POST for a caller whose user row is gone, and registration
    without a password (bcrypt throws), are caught and answer 500
    "Internal server error".
- Registration refuses a taken display name as well as a taken email.

## Model

| member | source | states |
|---|---|---|
| Dates.MakeFullYear | app/api/checkin/route.ts:86-87 | the Date constructor reads years 0..99 as 1900..1999; its partners are CheckInRoute.WindowIsCalendarMonth and GymCalendar.AsWrittenJumpsInTwoDigitYears |
| Dates.MakeDay | app/api/checkin/route.ts:86-87 | the day count behind `new Date(y, m, d)`, with the month carried into the year and day 0 as the last day of the previous month; DayZeroIsLastDayOfPreviousMonth, MonthWindowExact and UnixEpochIsDayZero state it, the last fixing the epoch |
| Dates.UnixEpochIsDayZero | app/api/checkin/route.ts:86-87 | 1 January 1970 is day 0, so day numbers count days from the epoch that Date time values use |
| Dates.DayZeroIsLastDayOfPreviousMonth | app/api/checkin/route.ts:87 | day 0 of the month after m is the last day of m, DaysInMonth(y, m) by the Gregorian leap-year rule |
| Dates.MonthWindowExact | app/api/checkin/route.ts:86-94 | a valid day lies between `new Date(y, m-1, 1)` and `new Date(y, m, 0)` inclusive iff it is a day of month m of year y |
| Dates.DayNumberOrdersDaysOfAMonth | app/api/checkin/route.ts:103-105 | within one month, the time values of two days differ by exactly the difference of their days of the month |
| CheckInRoute.Post | app/api/checkin/route.ts:6-62 | 401 without a session id; 400 "You have already checked in today" when (caller, today) exists; 500 when the caller's user row is gone; otherwise exactly one new row (caller, today, label or null), named after its owner; every failure leaves the store unchanged |
| CheckInRoute.Delete | app/api/checkin/route.ts:118-147 | 401 without a session id; the day defaults to today; 200 iff the caller has a row that day, and then exactly that key's rows are removed; otherwise 500 "Could not delete check-in" and nothing changes |
| CheckInRoute.List | app/api/checkin/route.ts:64-116 | 401 without a session id; 400 without month or year; otherwise exactly the rows of all users in the month window, each once, in non-decreasing day order, each with its owner's name |
| CheckInRoute.SortByKey | app/api/checkin/route.ts:103-105 | the output holds each element of the set exactly once, in non-decreasing key order |
| CheckInRoute.SortByDay | app/api/checkin/route.ts:103-105 | the rows of the set, each once, ordered by day ascending |
| CheckInRoute.PostKeepsValid | app/api/checkin/route.ts:22-44 | POST keeps at most one check-in per (user, day), unique emails and valid days |
| CheckInRoute.DeleteKeepsValid | app/api/checkin/route.ts:135-142 | DELETE keeps every store constraint |
| CheckInRoute.SecondPostIsDuplicate | app/api/checkin/route.ts:22-36 | after a successful check-in, a second one the same day is the 400 duplicate and changes nothing |
| CheckInRoute.SecondDeleteFails | app/api/checkin/route.ts:135-146 | repeating a successful delete of the same day answers 500 and leaves the ledger alone |
| CheckInRoute.UndoRestoresLedger | app/api/checkin/route.ts:125-142 | a successful check-in followed by a delete with no day restores the store |
| CheckInRoute.DeleteRemovesOneRow | app/api/checkin/route.ts:135-142 | with one row per key, a successful delete removes exactly one row |
| CheckInRoute.InMonthWindow | app/api/checkin/route.ts:86-95 | the listing's where-clause between `new Date(year, month - 1, 1)` and `new Date(year, month, 0)`; DayInWindow and WindowIsCalendarMonth state that it selects exactly one calendar month of MakeFullYear(year) |
| CheckInRoute.WindowIsCalendarMonth | app/api/checkin/route.ts:86-95 | a row is in the window of (year, month) iff its day is in that month of MakeFullYear(year) |
| CheckInRoute.DayInWindow | app/api/checkin/route.ts:86-95 | a valid day passes the listing's where-clause for (year, month) iff it is a day of that month of MakeFullYear(year) |
| CheckInRoute.WindowOrderIsDayOfMonthOrder | app/api/checkin/route.ts:103-105 | inside one window, date order is day-of-month order |
| ForgotPasswordRoute.ForgotPassword | app/api/auth/forgot-password/route.ts:6-21 | 400 "Email required" without an email; 404 for an unknown email; 200 iff a user has the email, and then exactly one token is added, owned by that user and expiring at now + 30 minutes; users and ledger never change |
| ForgotPasswordRoute.ForgotPasswordKeepsValid | app/api/auth/forgot-password/route.ts:15-17 | minting a token keeps every store constraint |
| ResetPasswordRoute.ResetPassword | app/api/auth/reset-password/route.ts:5-17 | 400 without token or password; 400 "Invalid or expired token" for an unknown token or one with `expires < now`, which stays stored; 200 iff the token is usable and its owner exists, and then only the owner's password becomes Hash(password) and only that token is removed |
| ResetPasswordRoute.ResetPasswordKeepsValid | app/api/auth/reset-password/route.ts:14-15 | a reset keeps every store constraint |
| ResetPasswordRoute.TokenIsSingleUse | app/api/auth/reset-password/route.ts:10-15 | the same request repeated after a success is refused as invalid, at any later time |
| ResetPasswordRoute.UsableUntilExpiry | app/api/auth/reset-password/route.ts:11 | a stored token is usable iff now <= expires, so it is still accepted at the instant it expires |
| ResetPasswordRoute.ResetWithinThirtyMinutes | app/api/auth/reset-password/route.ts:10-15 | a token minted at t resets the password when used at or before t + 30 min; after that it is refused and kept |
| ResetPasswordRoute.ResetKeepsOtherTokens | app/api/auth/reset-password/route.ts:14-15 | every other token, the same user's included, survives a reset unchanged |
| RegisterRoute.Register | app/api/auth/register/route.ts:5-56 | 400 when the email or name is taken; 500 without a password; otherwise one new user with role "user", Hash(password), empty birthday/weight/height stored as null, and a response carrying only id, name and email |
| RegisterRoute.RegisterKeepsIdentitiesUnique | app/api/auth/register/route.ts:10-40 | unique emails and unique names stay unique |
| RegisterRoute.RegisterKeepsValid | app/api/auth/register/route.ts:10-40 | registration keeps every store constraint |
| RegisterRoute.SecondRegistrationRefused | app/api/auth/register/route.ts:10-24 | after a registration, another with the same email or name is the 400 duplicate and changes nothing |
| AdminUsersRoute.ListUsers | app/api/admin/users/route.ts:7-14 | 401 unless the role is "admin"; otherwise one summary (id, name, email, role, createdAt) for every user and nothing else |
| AdminUsersRoute.CreateUser | app/api/admin/users/route.ts:16-32 | 401 for non-admins; 400 without email or password; 400 "User already exists" for a taken email; otherwise one new row with Hash(password) and the given role, or "user" when none is given |
| AdminUsersRoute.UpdateUser | app/api/admin/users/route.ts:34-54 | 401 for non-admins; 400 without id; uncaught failure for a missing id or an email another user has; otherwise each supplied field among name, email, role, password (hashed) is set, every other field and every other user is unchanged |
| AdminUsersRoute.DeleteUser | app/api/admin/users/route.ts:56-67 | 401 for non-admins; 400 without id; uncaught failure for a missing id; otherwise exactly that user is removed |
| AdminUsersRoute.CreateUserKeepsValid | app/api/admin/users/route.ts:25-30 | admin creation keeps every store constraint |
| AdminUsersRoute.UpdateUserKeepsValid | app/api/admin/users/route.ts:44-52 | an update keeps emails unique, since a clashing email fails |
| AdminUsersRoute.DeleteUserKeepsValid | app/api/admin/users/route.ts:65 | deleting a user keeps every store constraint |
| AdminUsersRoute.EmptyUpdateChangesNothing | app/api/admin/users/route.ts:44-52 | an update with no fields leaves the store as it was |
| AdminUsersRoute.UpdateIsIdempotent | app/api/admin/users/route.ts:44-52 | repeating a successful update gives the same response and store |
| AdminUsersRoute.NonAdminIsRefusedEverywhere | app/api/admin/users/route.ts:7-67 | every verb answers 401 to a caller whose role is not exactly "admin" and changes nothing |
| CheckInButton.To12Hour | components/dashboard/check-in-button.tsx:55-62 | the hour is in 1..12 and congruent to the 24-hour hour modulo 12; PM iff the hour is 12 or later |
| CheckInButton.ClockRoundTrip | components/dashboard/check-in-button.tsx:57-62 | the 12-hour reading converts back to the 24-hour hour it came from |
| CheckInButton.ClockRoundTripBack | components/dashboard/check-in-button.tsx:57-62 | every 12-hour reading is the conversion of exactly one hour of the day |
| CheckInButton.RoundMinute | components/dashboard/check-in-button.tsx:64 | the rounded minute is a multiple of 5 in 0..60 within 2 of the minute |
| CheckInButton.RoundMinuteIsNearest | components/dashboard/check-in-button.tsx:64 | no multiple of 5 is closer to the minute than the rounded one |
| CheckInButton.DecimalSpellsNumber | components/dashboard/check-in-button.tsx:63-64 | `toString` gives digits that spell the number back: one digit below 10, two below 100 |
| CheckInButton.PadStart | components/dashboard/check-in-button.tsx:63-64 | padding keeps a long enough string and otherwise puts fill characters before it up to the width |
| CheckInButton.TwoDigits | components/dashboard/check-in-button.tsx:63-64 | the padded hour or minute is exactly two digits spelling the number |
| CheckInButton.TimeLabel | components/dashboard/check-in-button.tsx:74-80 | the label is empty iff some part is empty |
| CheckInButton.LabelRoundTrip | components/dashboard/check-in-button.tsx:74-80 | a label of two-character parts splits back into hour, minute and period |
| CheckInButton.InitialSelection | components/dashboard/check-in-button.tsx:54-68 | the preselected hour and period are the 12-hour reading of the current hour (the hour being one of the options), and the minute string spells the rounded minute |
| CheckInButton.InitialLabel | components/dashboard/check-in-button.tsx:68 | `updateTime(hourStr, roundedMinute, period)` on the preselection; InitialLabelShape and ElevenFiftyEight state its shape and the "11:60 AM" case |
| CheckInButton.InitialLabelShape | components/dashboard/check-in-button.tsx:63-68 | the preselected label has eight characters and splits back into the preselection |
| CheckInButton.RoundedMinuteIsAnOption | components/dashboard/check-in-button.tsx:64 | up to minute 57 the preselected minute is one of the options |
| CheckInButton.HourOptions | components/dashboard/check-in-button.tsx:180-182 | the hour dropdown's values, the hours 1..12 of line 11 padded to two digits; InitialSelection and InitialSelectionFixed state that the preselected hour is one of them |
| CheckInButton.MinuteOptions | components/dashboard/check-in-button.tsx:12 | the minute dropdown's values "00".."55" in steps of 5; SixtyIsNoOption and RoundedMinuteIsAnOption state which rounded minutes are among them |
| CheckInButton.SixtyIsNoOption | components/dashboard/check-in-button.tsx:12 | no minute option spells 60 |
| CheckInButton.PreselectedMinuteSelectable | components/dashboard/check-in-button.tsx:64 | the preselected minute is an option iff the minute is at most 57 |
| CheckInButton.ElevenFiftyEight | components/dashboard/check-in-button.tsx:54-68 | at 11:58 the preselected label is "11:60 AM" |
| CheckInButton.RoundToFiveMinutes | components/dashboard/check-in-button.tsx:64 | corrected (see ## Findings): the rounded time is a valid hour and a minute in 0..55, a multiple of 5, at most 2 minutes away on the 24-hour clock |
| CheckInButton.InitialSelectionFixed | components/dashboard/check-in-button.tsx:54-68 | corrected (see ## Findings): the selection denotes the current time rounded to the nearest five minutes with the carry into the hour, and its hour and minute are always options |
| CheckInButton.TodayStatus | components/dashboard/check-in-button.tsx:39-40 | true iff some fetched check-in is dated today and belongs to the caller |
| CheckInButton.LabelReachesLedger | app/api/checkin/route.ts:43 | the server stores a non-empty label verbatim and an empty one as null |
| CheckInButton.Lower | components/dashboard/check-in-button.tsx:118 | `toLowerCase` on ASCII text, keeping the length; DuplicateMessageIsRecognised and InternalErrorNotRecognised apply it to the server's messages |
| CheckInButton.Contains | components/dashboard/check-in-button.tsx:118 | `includes`: the pattern occurs at some position of the text; DuplicateMessageIsRecognised and InternalErrorNotRecognised state it for the server's messages |
| CheckInButton.DuplicateMessageIsRecognised | components/dashboard/check-in-button.tsx:118-120 | the lower-cased duplicate message contains "already checked in" |
| CheckInButton.InternalErrorNotRecognised | components/dashboard/check-in-button.tsx:118-120 | the lower-cased internal-error message does not |
| CheckInButton.CheckedInAfterPost | components/dashboard/check-in-button.tsx:106-120 | the flag after a POST answer; ButtonMarksCheckedInOnSuccessOrDuplicate, DuplicateMessageIsRecognised and InternalErrorNotRecognised state it over every answer the handler gives |
| CheckInButton.CheckedInAfterUndo | components/dashboard/check-in-button.tsx:136-137 | the flag after a DELETE answer; UndoClearsFlagIffCheckedIn states it over every answer the handler gives |
| CheckInButton.ButtonMarksCheckedInOnSuccessOrDuplicate | components/dashboard/check-in-button.tsx:106-120 | after a POST, the button shows "checked in" iff the check-in was recorded or refused as a duplicate |
| CheckInButton.UndoClearsFlagIffCheckedIn | components/dashboard/check-in-button.tsx:133-138 | undo clears the flag iff the caller had a check-in today |
| GymCalendar.FirstOfMonth | components/calendar/gym-calendar.tsx:66 | `new Date(y, m0, 1)` is the month with the same index as month m0 of MakeFullYear(y) |
| GymCalendar.PreviousMonthAsWritten | components/calendar/gym-calendar.tsx:65-67 | `new Date(year, month0 - 1, 1)` as written; AsWrittenAgreesOutsideTwoDigitYears, AsWrittenJumpsInTwoDigitYears and BackAndForthFromYear100 state where it is one month back and where it jumps 1900 years |
| GymCalendar.NextMonthAsWritten | components/calendar/gym-calendar.tsx:69-71 | `new Date(year, month0 + 1, 1)` as written; the same three lemmas state where it is one month forward and where it jumps 1900 years |
| GymCalendar.PreviousMonth | components/calendar/gym-calendar.tsx:65-67 | corrected (see ## Findings): the month exactly one before: December of year-1 from January, else month-1 |
| GymCalendar.NextMonth | components/calendar/gym-calendar.tsx:69-71 | corrected (see ## Findings): the month exactly one after: January of year+1 from December, else month+1 |
| GymCalendar.NextUndoesPrevious | components/calendar/gym-calendar.tsx:65-71 | next(previous(v)) = v |
| GymCalendar.PreviousUndoesNext | components/calendar/gym-calendar.tsx:65-71 | previous(next(v)) = v |
| GymCalendar.AsWrittenAgreesOutsideTwoDigitYears | components/calendar/gym-calendar.tsx:65-71 | outside the years 0..99 the navigation as written moves exactly one month |
| GymCalendar.AsWrittenJumpsInTwoDigitYears | components/calendar/gym-calendar.tsx:65-71 | inside the years 0..99 each step as written lands 1900 years later |
| GymCalendar.BackAndForthFromYear100 | components/calendar/gym-calendar.tsx:65-71 | back from January 100 and forward again shows January 2000 |
| GymCalendar.MonthCells | components/calendar/gym-calendar.tsx:29-31 | DaysInMonth cells; cell i is day i+1 of the shown month |
| GymCalendar.CellsAreTheMonthsDays | components/calendar/gym-calendar.tsx:29-31 | a day has a cell iff it is a valid day of the shown month |
| GymCalendar.FirstCellStartsTheMonth | components/calendar/gym-calendar.tsx:29 | the first cell is day 1 of the month |
| GymCalendar.LastCellEndsTheMonth | components/calendar/gym-calendar.tsx:30 | the last cell is day 0 of the next month |
| GymCalendar.CellsAreConsecutive | components/calendar/gym-calendar.tsx:31 | neighbouring cells are one day apart |
| GymCalendar.QueryMatchesCells | components/calendar/gym-calendar.tsx:36-38 | outside the years 0..99 a day is in the server window of (month0+1, year) iff it has a cell |
| GymCalendar.TwoDigitYearQueryFetchesOtherCentury | components/calendar/gym-calendar.tsx:36-38 | inside the years 0..99 the server window of the query holds exactly the days of the same month 1900 years later, and no day that has a cell |
| GymCalendar.QueryFetchesTheCells | components/calendar/gym-calendar.tsx:36-38 | the rows the query returns are the ledger rows dated in a cell |
| GymCalendar.ForDay | components/calendar/gym-calendar.tsx:59-63 | `getCheckInsForDay`, the filter of the fetched check-ins by day; ForDayMembers, ForDayCounts and ForDayKeepsOrder pin it as that filter |
| GymCalendar.ForDayMembers | components/calendar/gym-calendar.tsx:59-63 | a day's badges are exactly the fetched check-ins dated that day |
| GymCalendar.ForDayCounts | components/calendar/gym-calendar.tsx:59-63 | each check-in dated that day is shown as often as fetched, no other one at all |
| GymCalendar.ForDayKeepsOrder | components/calendar/gym-calendar.tsx:59-63 | the filter distributes over concatenation, so badges keep the fetched order |
| GymCalendar.CheckInInExactlyOneCell | components/calendar/gym-calendar.tsx:121-122 | a check-in of the month is in cell i iff i is its day of the month less one |
| GymCalendar.EveryCheckInShownOnce | components/calendar/gym-calendar.tsx:121-122 | the badges over all cells number exactly the check-ins fetched for the month |

## Left out

- The object-relational mapper and the database become the `Store` value. Nothing about queries, transactions or the check-then-insert race between concurrent requests is modelled.
- Prisma ignoring an `undefined` value in a `where` clause is not modelled.
- RegisterRoute.Register: name and email are plain strings, so they are always present, as the sign-up form requires (components/auth/sign-up-form.tsx:74).
- next-auth sessions are an explicit `Option<Session>`. An empty user id counts as no session.
- bcrypt is deterministic and its random salt is not modelled. Only the cost factor 12 and the hashed secret are kept.
- uuid generation and the database's id generation are fresh-value parameters, with a precondition that the value is not yet in use.
- ForgotPasswordRoute.ForgotPassword: requires unique emails, as the unique column guarantees, so the lookup by email finds one user.
- Time zones and local-midnight normalisation are not modelled: a check-in day is a (year, month, day) triple.
- `new Date(dateParam)` parsing and invalid dates are not modelled: the DELETE day is an optional triple.
- CheckInRoute.List: requires the month to be in 1..12; `parseInt` of malformed or out-of-range month and year strings is not modelled.
- CheckInButton.TodayStatus: compares calendar days and user ids. It does not model the UTC `toISOString().slice(0, 10)` text comparison.
- CheckInButton.Lower: lower-cases ASCII letters only, which is enough for the handlers' messages. `toLowerCase` itself covers all of Unicode.
- `parseFloat` of weight and height, and `new Date(birthday)`, are not modelled: the values are opaque optional strings.
- `console.log` of the reset link, all `fetch` calls, React state, effects, intervals, the local-time display and all rendering are left out. So are the pages and the admin page's client-side password length check.
- What happens to a deleted user's check-ins and tokens depends on the database's cascade settings, which the code does not show. Deletion removes only the user row here, so the leftover rows stand in for either a cascade or a refused delete; no foreign-key setting produces that state, while CheckInRoute.Post relies on the same foreign key for its 500.
- Request bodies are fields that are strings or absent. A body that `req.json()` cannot parse is not modelled: it is caught as a 500 in check-in POST and in registration, and uncaught in forgot-password, reset-password and admin POST, PUT and DELETE.
- AdminUsersRoute.UpdateUser: a field is absent or a string, so JSON `null` is not distinguished from absent. The code tests `!== undefined` (app/api/admin/users/route.ts:45-50), so `"name": null` clears the name and `"password": null` makes bcrypt throw; neither is modelled.
- The Date object's range limit (±8.64e15 ms) is not modelled: years are unbounded integers.
- The order of the admin user listing is unspecified, so the listing is a set.

## Findings

| source | as written | input that shows it | evidently intended | confidence | as-written member | corrected member |
|---|---|---|---|---|---|---|
| components/dashboard/check-in-button.tsx:64 | `Math.round(m / 5) * 5` gives 60 for minutes 58 and 59, and the minute dropdown has no "60" option; the label sent becomes "HH:60 XM" | local time 11:58 preselects "11:60 AM" | round to the nearest five minutes, carrying into the hour | medium; not executed | CheckInButton.PreselectedMinuteSelectable | CheckInButton.InitialSelectionFixed |
| components/calendar/gym-calendar.tsx:65-71 | `new Date(getFullYear(), getMonth() ± 1, 1)` re-reads a year 0..99 as 1900..1999, so a step inside those years jumps 1900 years | January 100, one month back (December 99), then one month forward gives January 2000; the same re-reading at app/api/checkin/route.ts:86-87 makes the listing for a shown year 50 return the month of 1950 (GymCalendar.TwoDigitYearQueryFetchesOtherCentury) | move exactly one month, so that forward undoes back | low (years 0..99 only); not executed | GymCalendar.BackAndForthFromYear100 | GymCalendar.NextUndoesPrevious |

=== FILE: admin_users_route.dfy ===
/**
 * /api/admin/users: user management for administrators.  Every verb first
 * checks that the session's role is exactly "admin".  PUT and DELETE do not
 * catch store errors: updating or deleting a missing id, or updating an
 * email to one another user has, fails with an unhandled 500.
 */
module AdminUsersRoute {
  import opened Wrappers
  import opened Schema
  import opened Http

  const CredentialsRequiredMessage: string := "Email and password required"
  const UserExistsMessage: string := "User already exists"
  const IdRequiredMessage: string := "User ID required"

  /** The listing's projection of one user row. */
  function Summary(id: string, u: User): UserSummary {
    UserSummary(id, u.name, u.email, u.role, u.createdAt)
  }

  /** GET: every user, projected to id, name, email, role and creation time. */
  function ListUsers(st: Store, caller: Option<Session>): (r: Response)
    ensures !IsAdmin(caller) ==> r == Unauthorized
    ensures IsAdmin(caller) ==> r.status == 200 && r.payload.UserList?
    ensures IsAdmin(caller) ==> forall id :: id in st.users ==> Summary(id, st.users[id]) in r.payload.users
    ensures IsAdmin(caller) ==> forall s :: s in r.payload.users ==>
      && s.id in st.users
      && s.name == st.users[s.id].name && s.email == st.users[s.id].email
      && s.role == st.users[s.id].role && s.createdAt == st.users[s.id].createdAt
  {
    if !IsAdmin(caller) then Unauthorized
    else Ok(UserList(set id | id in st.users :: Summary(id, st.users[id])))
  }

  /** POST: create a user with a hashed password; the role defaults to "user" and is otherwise taken as given. */
  function CreateUser(st: Store, caller: Option<Session>, name: Option<string>, email: Option<string>,
                      password: Option<string>, role: Option<string>, newId: string, now: int): (h: Handled)
    requires newId !in st.users
    ensures h.state.tokens == st.tokens && h.state.ledger == st.ledger
    ensures !IsAdmin(caller) ==> h.response == Unauthorized && h.state == st
    ensures IsAdmin(caller) && (!Truthy(email) || !Truthy(password)) ==>
      h.response == BadRequest(CredentialsRequiredMessage) && h.state == st
    ensures IsAdmin(caller) && Truthy(email) && Truthy(password) && EmailTaken(st.users, email.value) ==>
      h.response == BadRequest(UserExistsMessage) && h.state == st
    ensures h.response.status == 200 <==>
      IsAdmin(caller) && Truthy(email) && Truthy(password) && !EmailTaken(st.users, email.value)
    ensures h.response.status == 200 ==>
      && newId in h.state.users
      && h.state.users == st.users[newId := h.state.users[newId]]
      && var u := h.state.users[newId];
      && u.name == name && u.email == email.value
      && u.password == Hash(password.value)
      && (Truthy(role) ==> u.role == role.value) && (!Truthy(role) ==> u.role == UserRole)
      && u.birthday == None && u.weight == None && u.height == None
      && u.createdAt == now
      && h.response.payload == FullUser(newId, u)
    ensures h.response.status != 200 ==> h.state == st
  {
    if !IsAdmin(caller) then Handled(Unauthorized, st)
    else if !Truthy(email) || !Truthy(password) then Handled(BadRequest(CredentialsRequiredMessage), st)
    else if EmailTaken(st.users, email.value) then Handled(BadRequest(UserExistsMessage), st)
    else
      var r := if Truthy(role) then role.value else UserRole;
      var u := User(name, email.value, Hash(password.value), r, None, None, None, now);
      Handled(Ok(FullUser(newId, u)), st.(users := st.users[newId := u]))
  }

  /** Some user other than `id` has this email. */
  predicate EmailTakenByOther(users: map<string, User>, email: string, id: string) {
    exists other :: other in users && other != id && users[other].email == email
  }

  /** The row after applying the supplied fields; absent fields keep their value. */
  function ApplyUpdate(u: User, name: Option<string>, email: Option<string>,
                       role: Option<string>, password: Option<string>): User {
    u.(name := if name.Some? then name else u.name,
       email := email.GetOr(u.email),
       role := role.GetOr(u.role),
       password := if password.Some? then Hash(password.value) else u.password)
  }

  /** PUT: a partial update of name, email, role and password (hashed) of one user. */
  function UpdateUser(st: Store, caller: Option<Session>, id: Option<string>, name: Option<string>,
                      email: Option<string>, role: Option<string>, password: Option<string>): (h: Handled)
    ensures h.state.tokens == st.tokens && h.state.ledger == st.ledger
    ensures !IsAdmin(caller) ==> h.response == Unauthorized && h.state == st
    ensures IsAdmin(caller) && !Truthy(id) ==> h.response == BadRequest(IdRequiredMessage) && h.state == st
    ensures (IsAdmin(caller) && Truthy(id)
             && (id.value !in st.users || (email.Some? && EmailTakenByOther(st.users, email.value, id.value))))
            ==> h.response == Crash && h.state == st
    ensures h.response.status == 200 <==>
      IsAdmin(caller) && Truthy(id) && id.value in st.users
      && !(email.Some? && EmailTakenByOther(st.users, email.value, id.value))
    ensures h.response.status == 200 ==> h.state.users.Keys == st.users.Keys
    ensures h.response.status == 200 ==>
      var before, after := st.users[id.value], h.state.users[id.value];
      && (forall other :: other in st.users && other != id.value ==> h.state.users[other] == st.users[other])
      && (name.Some? ==> after.name == name) && (name.None? ==> after.name == before.name)
      && (email.Some? ==> after.email == email.value) && (email.None? ==> after.email == before.email)
      && (role.Some? ==> after.role == role.value) && (role.None? ==> after.role == before.role)
      && (password.Some? ==> after.password == Hash(password.value))
      && (password.None? ==> after.password == before.password)
      && after.birthday == before.birthday && after.weight == before.weight
      && after.height == before.height && after.createdAt == before.createdAt
      && h.response.payload == FullUser(id.value, after)
    ensures h.response.status != 200 ==> h.state == st
  {
    if !IsAdmin(caller) then Handled(Unauthorized, st)
    else if !Truthy(id) then Handled(BadRequest(IdRequiredMessage), st)
    else if id.value !in st.users then Handled(Crash, st)
    else if email.Some? && EmailTakenByOther(st.users, email.value, id.value) then Handled(Crash, st)
    else
      var u := ApplyUpdate(st.users[id.value], name, email, role, password);
      Handled(Ok(FullUser(id.value, u)), st.(users := st.users[id.value := u]))
  }

  /** DELETE: remove one user row. */
  function DeleteUser(st: Store, caller: Option<Session>, id: Option<string>): (h: Handled)
    ensures h.state.tokens == st.tokens && h.state.ledger == st.ledger
    ensures !IsAdmin(caller) ==> h.response == Unauthorized && h.state == st
    ensures IsAdmin(caller) && !Truthy(id) ==> h.response == BadRequest(IdRequiredMessage) && h.state == st
    ensures IsAdmin(caller) && Truthy(id) && id.value !in st.users ==> h.response == Crash && h.state == st
    ensures h.response.status == 200 <==> IsAdmin(caller) && Truthy(id) && id.value in st.users
    ensures h.response.status == 200 ==>
      && h.response.payload == Succeeded
      && h.state.users.Keys == st.users.Keys - {id.value}
      && forall other :: other in h.state.users ==> h.state.users[other] == st.users[other]
    ensures h.response.status != 200 ==> h.state == st
  {
    if !IsAdmin(caller) then Handled(Unauthorized, st)
    else if !Truthy(id) then Handled(BadRequest(IdRequiredMessage), st)
    else if id.value !in st.users then Handled(Crash, st)
    else Handled(Ok(Succeeded), st.(users := st.users - {id.value}))
  }

  // ---------------------------------------------------------------------
  // Properties
  // ---------------------------------------------------------------------

  /** Creating a user keeps every store constraint. */
  lemma CreateUserKeepsValid(st: Store, caller: Option<Session>, name: Option<string>, email: Option<string>,
                             password: Option<string>, role: Option<string>, newId: string, now: int)
    requires newId !in st.users && Valid(st)
    ensures Valid(CreateUser(st, caller, name, email, password, role, newId, now).state)
  {
    var h := CreateUser(st, caller, name, email, password, role, newId, now);
    if h.response.status == 200 {
      AddUserKeepsEmailsUnique(st.users, newId, h.state.users[newId]);
    }
  }

  /** Updating a user keeps emails unique: a clashing email is refused by the store. */
  lemma UpdateUserKeepsValid(st: Store, caller: Option<Session>, id: Option<string>, name: Option<string>,
                             email: Option<string>, role: Option<string>, password: Option<string>)
    requires Valid(st)
    ensures Valid(UpdateUser(st, caller, id, name, email, role, password).state)
  {
  }

  /** Deleting a user keeps every store constraint. */
  lemma DeleteUserKeepsValid(st: Store, caller: Option<Session>, id: Option<string>)
    requires Valid(st)
    ensures Valid(DeleteUser(st, caller, id).state)
  {
  }

  /** An update that supplies no field leaves the store as it was. */
  lemma EmptyUpdateChangesNothing(st: Store, caller: Option<Session>, id: Option<string>)
    ensures UpdateUser(st, caller, id, None, None, None, None).state == st
  {
    var h := UpdateUser(st, caller, id, None, None, None, None);
    if h.response.status == 200 {
      assert h.state.users[id.value] == st.users[id.value];
      assert h.state.users == st.users;
    }
  }

  /** Repeating a successful update yields the same store and the same response. */
  lemma UpdateIsIdempotent(st: Store, caller: Option<Session>, id: Option<string>, name: Option<string>,
                           email: Option<string>, role: Option<string>, password: Option<string>)
    requires UpdateUser(st, caller, id, name, email, role, password).response.status == 200
    ensures var h1 := UpdateUser(st, caller, id, name, email, role, password);
      UpdateUser(h1.state, caller, id, name, email, role, password) == h1
  {
    var h1 := UpdateUser(st, caller, id, name, email, role, password);
    var h2 := UpdateUser(h1.state, caller, id, name, email, role, password);
    if email.Some? {
      assert !EmailTakenByOther(h1.state.users, email.value, id.value);
    }
    assert h2.state.users[id.value] == h1.state.users[id.value];
    assert h2.state.users == h1.state.users;
  }

  /** Whatever the payload, a caller who is not an administrator changes nothing and gets 401. */
  lemma NonAdminIsRefusedEverywhere(st: Store, caller: Option<Session>, id: Option<string>, name: Option<string>,
                                    email: Option<string>, role: Option<string>, password: Option<string>,
                                    newId: string, now: int)
    requires !IsAdmin(caller) && newId !in st.users
    ensures ListUsers(st, caller) == Unauthorized
    ensures CreateUser(st, caller, name, email, password, role, newId, now) == Handled(Unauthorized, st)
    ensures UpdateUser(st, caller, id, name, email, role, password) == Handled(Unauthorized, st)
    ensures DeleteUser(st, caller, id) == Handled(Unauthorized, st)
  {
  }
}

=== FILE: checkin_button.dfy ===
/**
 * The pure logic of the dashboard's check-in button: the 24-hour to 12-hour
 * conversion and five-minute rounding that preselect the workout time, the
 * "HH:MM P" text sent to the server, the today-status test, and the
 * reaction to the server's answer.
 */
module CheckInButton {
  import opened Wrappers
  import opened Dates
  import opened Schema
  import opened Http
  import CheckInRoute

  const AM: string := "AM"
  const PM: string := "PM"

  /** A reading of the 12-hour clock. */
  datatype ClockHour = ClockHour(hour: int, period: string)

  /** The three dropdowns: hour, minute and period strings ("" is the unselected hour or minute). */
  datatype Selection = Selection(hour: string, minute: string, period: string)

  /** The 12-hour reading of hour `h24` of the day: 0 is 12 AM, 12 is 12 PM, 13..23 are 1..11 PM. */
  function To12Hour(h24: int): (c: ClockHour)
    requires 0 <= h24 <= 23
    ensures 1 <= c.hour <= 12
    ensures c.hour % 12 == h24 % 12
    ensures c.period == PM <==> h24 >= 12
    ensures c.period == AM <==> h24 < 12
  {
    var period := if h24 >= 12 then PM else AM;
    var h := if h24 > 12 then h24 - 12 else h24;
    ClockHour(if h == 0 then 12 else h, period)
  }

  /** The hour of the day a 12-hour reading denotes. */
  function To24Hour(c: ClockHour): int {
    var h := if c.hour == 12 then 0 else c.hour;
    if c.period == PM then h + 12 else h
  }

  /** `Math.round(m / 5) * 5`, where Math.round(x) is floor(x + 1/2). */
  function RoundMinute(m: int): (r: int)
    requires 0 <= m <= 59
    ensures r % 5 == 0 && 0 <= r <= 60
    ensures -2 <= r - m <= 2
  {
    ((2 * m + 5) / 10) * 5
  }

  function DigitChar(d: int): char
    requires 0 <= d <= 9
  {
    (('0' as int) + d) as char
  }

  /** `n.toString()` for a natural number. */
  function Decimal(n: nat): string
    decreases n
  {
    if n < 10 then [DigitChar(n)] else Decimal(n / 10) + [DigitChar(n % 10)]
  }

  /** `s.padStart(width, fill)`. */
  function PadStart(s: string, width: nat, fill: char): (r: string)
    ensures |s| >= width ==> r == s
    ensures |s| < width ==> (|r| == width && r[width - |s|..] == s
      && forall i :: 0 <= i < width - |s| ==> r[i] == fill)
  {
    if |s| >= width then s else seq(width - |s|, _ => fill) + s
  }

  predicate AllDigits(s: string) {
    forall i :: 0 <= i < |s| ==> '0' <= s[i] <= '9'
  }

  /** The number a string of decimal digits spells. */
  function DigitsValue(s: string): int {
    if s == [] then 0 else DigitsValue(s[..|s| - 1]) * 10 + (s[|s| - 1] as int - '0' as int)
  }

  /** `n.toString().padStart(2, '0')` for n < 100. */
  function TwoDigits(n: nat): (s: string)
    requires n < 100
    ensures |s| == 2 && AllDigits(s) && DigitsValue(s) == n
  {
    var d := Decimal(n);
    DecimalSpellsNumber(n);
    if n < 10 then
      assert PadStart(d, 2, '0') == ['0'] + d;
      assert DigitsValue(['0'] + d) == n by {
        assert (['0'] + d)[..1] == ['0'];
      }
      PadStart(d, 2, '0')
    else
      assert |d| == 2 by {
        DecimalSpellsNumber(n / 10);
      }
      PadStart(d, 2, '0')
  }

  /** The hour options "01".."12" and the minute options "00", "05", .., "55". */
  function HourOptions(): seq<string> {
    seq(12, i requires 0 <= i < 12 => TwoDigits(i + 1))
  }

  function MinuteOptions(): seq<string> {
    seq(12, i requires 0 <= i < 12 => TwoDigits(5 * i))
  }

  /** `updateTime`: "HH:MM P" once hour, minute and period are all chosen, otherwise "". */
  function TimeLabel(h: string, m: string, p: string): (text: string)
    ensures text == "" <==> h == "" || m == "" || p == ""
  {
    if h != "" && m != "" && p != "" then h + ":" + m + " " + p else ""
  }

  /** Split a text of two-character hour and minute back into its parts. */
  function ParseLabel(text: string): Option<Selection> {
    if |text| >= 7 && text[2] == ':' && text[5] == ' ' then
      Some(Selection(text[..2], text[3..5], text[6..]))
    else None
  }

  /**
   * The selection the button starts with at local time `h24`:`m` (code as
   * written: the minute may round up to 60).
   */
  function InitialSelection(h24: int, m: int): (s: Selection)
    requires 0 <= h24 <= 23 && 0 <= m <= 59
    ensures s.hour in HourOptions()
    ensures DigitsValue(s.hour) == To12Hour(h24).hour && s.period == To12Hour(h24).period
    ensures |s.minute| == 2 && AllDigits(s.minute) && DigitsValue(s.minute) == RoundMinute(m)
  {
    var c := To12Hour(h24);
    assert HourOptions()[c.hour - 1] == TwoDigits(c.hour);
    Selection(TwoDigits(c.hour), TwoDigits(RoundMinute(m)), c.period)
  }

  /** The text the button holds after preselecting the time. */
  function InitialLabel(h24: int, m: int): string
    requires 0 <= h24 <= 23 && 0 <= m <= 59
  {
    var s := InitialSelection(h24, m);
    TimeLabel(s.hour, s.minute, s.period)
  }

  /** Round a time of day to the nearest five minutes, carrying into the hour and past midnight. */
  function RoundToFiveMinutes(h24: int, m: int): (r: (int, int))
    requires 0 <= h24 <= 23 && 0 <= m <= 59
    ensures 0 <= r.0 <= 23 && 0 <= r.1 <= 55 && r.1 % 5 == 0
    ensures var d := (60 * r.0 + r.1) - (60 * h24 + m);
      -2 <= d <= 2 || -2 <= d + 1440 <= 2
  {
    var r := RoundMinute(m);
    if r < 60 then (h24, r) else if h24 < 23 then (h24 + 1, 0) else (0, 0)
  }

  /** The selection with the rounding carried into the hour; its minute is always an option. */
  function InitialSelectionFixed(h24: int, m: int): (s: Selection)
    requires 0 <= h24 <= 23 && 0 <= m <= 59
    ensures s.hour in HourOptions() && s.minute in MinuteOptions()
    ensures s.period == AM || s.period == PM
    ensures var r := RoundToFiveMinutes(h24, m);
      To24Hour(ClockHour(DigitsValue(s.hour), s.period)) == r.0 && DigitsValue(s.minute) == r.1
  {
    var (h, mm) := RoundToFiveMinutes(h24, m);
    var c := To12Hour(h);
    ClockRoundTrip(h);
    assert HourOptions()[c.hour - 1] == TwoDigits(c.hour);
    assert MinuteOptions()[mm / 5] == TwoDigits(mm);
    Selection(TwoDigits(c.hour), TwoDigits(mm), c.period)
  }

  /** The page's today-status: some fetched check-in is the caller's and is dated today. */
  method TodayStatus(fetched: seq<Listed>, today: Date, userId: string) returns (found: bool)
    ensures found <==> exists i :: 0 <= i < |fetched| && fetched[i].entry.day == today
                                   && fetched[i].entry.userId == userId
  {
    found := false;
    var i := 0;
    while i < |fetched| && !found
      invariant 0 <= i <= |fetched|
      invariant found <==> exists j :: 0 <= j < i && fetched[j].entry.day == today
                                       && fetched[j].entry.userId == userId
    {
      if fetched[i].entry.day == today && fetched[i].entry.userId == userId {
        found := true;
      }
      i := i + 1;
    }
  }

  function LowerChar(c: char): char {
    if 'A' <= c <= 'Z' then ((c as int) + 32) as char else c
  }

  /** `toLowerCase` on ASCII text. */
  function Lower(s: string): (r: string)
    ensures |r| == |s|
  {
    seq(|s|, i requires 0 <= i < |s| => LowerChar(s[i]))
  }

  /** `pattern` occurs in `s` starting at position `k`. */
  predicate MatchesAt(s: string, pattern: string, k: int) {
    0 <= k <= |s| - |pattern| && s[k..k + |pattern|] == pattern
  }

  /** `s.includes(pattern)`. */
  predicate Contains(s: string, pattern: string) {
    exists k :: 0 <= k <= |s| - |pattern| && MatchesAt(s, pattern, k)
  }

  const AlreadyCheckedIn: string := "already checked in"

  /**
   * The button's checked-in flag after the server answers a check-in POST:
   * set on a 2xx answer or on an error mentioning "already checked in"; a
   * body that is not JSON makes the parse throw and leaves the flag alone.
   */
  function CheckedInAfterPost(was: bool, r: Response): bool {
    if r.payload.Unhandled? then was
    else if 200 <= r.status <= 299 then true
    else if r.payload.ErrorMessage? && Contains(Lower(r.payload.error), AlreadyCheckedIn) then true
    else was
  }

  /** The flag after the server answers the undo (a DELETE of today's check-in): cleared on a 2xx answer. */
  function CheckedInAfterUndo(was: bool, r: Response): bool {
    if 200 <= r.status <= 299 then false else was
  }

  // ---------------------------------------------------------------------
  // Properties
  // ---------------------------------------------------------------------

  /** Decimal digits spell back the number, with one digit below ten and two below a hundred. */
  lemma {:induction false} DecimalSpellsNumber(n: nat)
    ensures AllDigits(Decimal(n)) && DigitsValue(Decimal(n)) == n
    ensures n < 10 ==> |Decimal(n)| == 1
    ensures 10 <= n < 100 ==> |Decimal(n)| == 2
    decreases n
  {
    var d := Decimal(n);
    if n >= 10 {
      DecimalSpellsNumber(n / 10);
      assert d[..|d| - 1] == Decimal(n / 10);
    }
  }

  /** The 12-hour reading converts back to the hour it came from. */
  lemma ClockRoundTrip(h24: int)
    requires 0 <= h24 <= 23
    ensures To24Hour(To12Hour(h24)) == h24
  {
  }

  /** Every 12-hour reading is the reading of exactly the hour it denotes. */
  lemma ClockRoundTripBack(c: ClockHour)
    requires 1 <= c.hour <= 12 && (c.period == AM || c.period == PM)
    ensures 0 <= To24Hour(c) <= 23 && To12Hour(To24Hour(c)) == c
  {
  }

  /** The rounded minute is the multiple of five nearest the minute. */
  lemma RoundMinuteIsNearest(m: int, k: int)
    requires 0 <= m <= 59 && k % 5 == 0
    ensures var r := RoundMinute(m);
      (if r >= m then r - m else m - r) <= (if k >= m then k - m else m - k)
  {
  }

  /** A preselected text has all three parts and splits back into them. */
  lemma LabelRoundTrip(h: string, m: string, p: string)
    requires |h| == 2 && |m| == 2 && p != ""
    ensures ParseLabel(TimeLabel(h, m, p)) == Some(Selection(h, m, p))
  {
    var text := TimeLabel(h, m, p);
    assert text == h + ":" + m + " " + p;
    assert text[..2] == h && text[3..5] == m && text[6..] == p;
  }

  /** The preselected text is always eight characters "HH:MM AM" or "HH:MM PM". */
  lemma InitialLabelShape(h24: int, m: int)
    requires 0 <= h24 <= 23 && 0 <= m <= 59
    ensures var s := InitialSelection(h24, m);
      |InitialLabel(h24, m)| == 8 && ParseLabel(InitialLabel(h24, m)) == Some(s)
  {
    var s := InitialSelection(h24, m);
    LabelRoundTrip(s.hour, s.minute, s.period);
  }

  /** The server stores a non-empty text verbatim and an empty one as null. */
  lemma LabelReachesLedger(st: Store, caller: Option<Session>, text: string, today: Date)
    requires CheckInRoute.Post(st, caller, Some(text), today).response.status == 200
    ensures var c := CheckInRoute.Post(st, caller, Some(text), today).response.payload.checkIn.entry;
      (text != "" ==> c.time == Some(text)) && (text == "" ==> c.time == None)
  {
  }

  /** Up to minute 57 the preselected minute is one of the minute options. */
  lemma RoundedMinuteIsAnOption(m: int)
    requires 0 <= m <= 57
    ensures TwoDigits(RoundMinute(m)) in MinuteOptions()
  {
    var q := (2 * m + 5) / 10;
    assert 0 <= q < 12 && RoundMinute(m) == 5 * q;
    assert MinuteOptions()[q] == TwoDigits(5 * q);
  }

  /** No minute option spells 60. */
  lemma SixtyIsNoOption(s: string)
    requires DigitsValue(s) == 60
    ensures s !in MinuteOptions()
  {
    forall i | 0 <= i < 12
      ensures MinuteOptions()[i] != s
    {
      assert DigitsValue(MinuteOptions()[i]) == 5 * i;
    }
  }

  /**
   * The preselected minute is one of the minute options exactly when the
   * minute is at most 57; from 58 on it rounds up to 60.
   */
  lemma PreselectedMinuteSelectable(h24: int, m: int)
    requires 0 <= h24 <= 23 && 0 <= m <= 59
    ensures InitialSelection(h24, m).minute in MinuteOptions() <==> m <= 57
  {
    var s := InitialSelection(h24, m);
    if m <= 57 {
      RoundedMinuteIsAnOption(m);
    } else {
      SixtyIsNoOption(s.minute);
    }
  }

  /** At 11:58 the button preselects "11:60 AM". */
  lemma ElevenFiftyEight()
    ensures InitialLabel(11, 58) == "11:60 AM"
  {
    assert Decimal(11) == "11";
    assert Decimal(60) == "60";
  }

  /** The duplicate-check-in message, lower-cased, contains "already checked in". */
  lemma DuplicateMessageIsRecognised()
    ensures Contains(Lower(CheckInRoute.DuplicateMessage), AlreadyCheckedIn)
  {
    var s := Lower(CheckInRoute.DuplicateMessage);
    forall i | 9 <= i < 27
      ensures s[i] == AlreadyCheckedIn[i - 9]
    {
      assert CheckInRoute.DuplicateMessage[i] == AlreadyCheckedIn[i - 9];
    }
    assert MatchesAt(s, AlreadyCheckedIn, 9);
  }

  lemma InternalErrorNotRecognised()
    ensures !Contains(Lower("Internal server error"), AlreadyCheckedIn)
  {
    var s := Lower("Internal server error");
    assert s[..4] == "inte";
    forall k | 0 <= k <= |s| - |AlreadyCheckedIn|
      ensures !MatchesAt(s, AlreadyCheckedIn, k)
    {
      assert s[k] == s[..4][k] != 'a';
    }
  }

  /**
   * After a POST, the button shows "checked in" exactly when the check-in was
   * recorded or the server refused it as a duplicate.
   */
  lemma ButtonMarksCheckedInOnSuccessOrDuplicate(st: Store, caller: Option<Session>, time: Option<string>, today: Date)
    ensures var r := CheckInRoute.Post(st, caller, time, today).response;
      CheckedInAfterPost(false, r) <==> r.status == 200 || r == BadRequest(CheckInRoute.DuplicateMessage)
  {
    var r := CheckInRoute.Post(st, caller, time, today).response;
    if r == BadRequest(CheckInRoute.DuplicateMessage) {
      DuplicateMessageIsRecognised();
    } else if r == InternalError {
      InternalErrorNotRecognised();
    }
  }

  /** Undo clears the flag exactly when the caller had a check-in today to remove. */
  lemma UndoClearsFlagIffCheckedIn(st: Store, s: Session, today: Date)
    requires s.userId != ""
    ensures var r := CheckInRoute.Delete(st, Some(s), Some(today), today).response;
      !CheckedInAfterUndo(true, r) <==> CheckInRoute.HasCheckIn(st.ledger, s.userId, today)
  {
  }
}

=== FILE: checkin_route.dfy ===
/**
 * The check-in ledger endpoints: POST records today's check-in, GET lists a
 * month of check-ins of every user, DELETE removes one of the caller's.
 *
 * "Today" is the server clock's current day, passed in as `today`; the
 * caller comes from the session.
 */
module CheckInRoute {
  import opened Wrappers
  import opened Dates
  import opened Schema
  import opened Http

  const DuplicateMessage: string := "You have already checked in today"
  const MissingMonthMessage: string := "Month and year are required"
  const DeleteFailedMessage: string := "Could not delete check-in"

  /** The ledger holds a row under the key (userId, day). */
  predicate HasCheckIn(ledger: set<CheckIn>, userId: string, day: Date) {
    exists c :: c in ledger && c.userId == userId && c.day == day
  }

  /**
   * POST: look the key (caller, today) up, refuse a second check-in, and
   * otherwise create the row.  Creating it for a caller whose user row is
   * gone violates the foreign key; the handler catches that as a 500.
   */
  function Post(st: Store, caller: Option<Session>, time: Option<string>, today: Date): (h: Handled)
    ensures h.state.users == st.users && h.state.tokens == st.tokens
    ensures !HasSessionId(caller) ==> h.response == Unauthorized && h.state == st
    ensures HasSessionId(caller) && HasCheckIn(st.ledger, caller.value.userId, today) ==>
      h.response == BadRequest(DuplicateMessage) && h.state == st
    ensures (HasSessionId(caller) && !HasCheckIn(st.ledger, caller.value.userId, today)
             && caller.value.userId !in st.users) ==> h.response == InternalError && h.state == st
    ensures h.response.status == 200 <==>
      HasSessionId(caller) && !HasCheckIn(st.ledger, caller.value.userId, today)
      && caller.value.userId in st.users
    ensures h.response.status == 200 ==>
      h.response.payload.CreatedCheckIn? &&
      var c := h.response.payload.checkIn.entry;
      && c.userId == caller.value.userId && c.day == today
      && (Truthy(time) ==> c.time == time)
      && (!Truthy(time) ==> c.time == None)
      && c !in st.ledger
      && h.state.ledger == st.ledger + {c}
      && h.response.payload.checkIn.userName == st.users[c.userId].name
    ensures h.response.status != 200 ==> h.state == st
  {
    if !HasSessionId(caller) then Handled(Unauthorized, st)
    else
      var uid := caller.value.userId;
      if HasCheckIn(st.ledger, uid, today) then Handled(BadRequest(DuplicateMessage), st)
      else if uid !in st.users then Handled(InternalError, st)
      else
        var c := CheckIn(uid, today, NullIfEmpty(time));
        Handled(Ok(CreatedCheckIn(Listed(c, OwnerName(st, uid)))), st.(ledger := st.ledger + {c}))
  }

  /**
   * DELETE: remove the caller's row for the given day, or for today when no
   * day is given.  Deleting a key that is not there throws, and the handler
   * answers 500 for it.
   */
  function Delete(st: Store, caller: Option<Session>, date: Option<Date>, today: Date): (h: Handled)
    ensures h.state.users == st.users && h.state.tokens == st.tokens
    ensures !HasSessionId(caller) ==> h.response == Unauthorized && h.state == st
    ensures HasSessionId(caller) ==>
      var day := if date.Some? then date.value else today;
      && (h.response.status == 200 <==> HasCheckIn(st.ledger, caller.value.userId, day))
      && (h.response.status == 200 ==>
            h.response.payload == Succeeded
            && forall c :: c in h.state.ledger <==>
                 c in st.ledger && !(c.userId == caller.value.userId && c.day == day))
      && (h.response.status != 200 ==>
            h.response == Response(500, ErrorMessage(DeleteFailedMessage)) && h.state == st)
  {
    if !HasSessionId(caller) then Handled(Unauthorized, st)
    else
      var uid := caller.value.userId;
      var day := date.GetOr(today);
      if !HasCheckIn(st.ledger, uid, day) then
        Handled(Response(500, ErrorMessage(DeleteFailedMessage)), st)
      else
        var rest := set c | c in st.ledger && !(c.userId == uid && c.day == day);
        Handled(Ok(Succeeded), st.(ledger := rest))
  }

  /**
   * The listing's where-clause: on or after `new Date(year, month - 1, 1)` and
   * on or before `new Date(year, month, 0)`, both built by the Date
   * constructor (two-digit years included).
   */
  predicate InMonthWindow(d: Date, year: int, month: int) {
    var y := MakeFullYear(year);
    MakeDay(y, month - 1, 1) <= DayNumber(d) <= MakeDay(y, month, 0)
  }

  /** The rows the listing selects. */
  function MonthWindow(ledger: set<CheckIn>, year: int, month: int): set<CheckIn> {
    set c | c in ledger && InMonthWindow(c.day, year, month)
  }

  /** The rows a listing carries. */
  function Entries(out: seq<Listed>): set<CheckIn> {
    set l | l in out :: l.entry
  }

  /**
   * GET: every check-in of every user in the requested month, joined with
   * the owner's name, ordered by day.
   */
  method List(st: Store, caller: Option<Session>, month: Option<int>, year: Option<int>) returns (r: Response)
    requires month.Some? ==> 1 <= month.value <= 12
    ensures !HasSessionId(caller) ==> r == Unauthorized
    ensures HasSessionId(caller) && (month.None? || year.None?) ==> r == BadRequest(MissingMonthMessage)
    ensures HasSessionId(caller) && month.Some? && year.Some? ==>
      r.status == 200 && r.payload.CheckInList? &&
      var out := r.payload.checkIns;
      && Entries(out) == MonthWindow(st.ledger, year.value, month.value)
      && (forall i, j :: 0 <= i < j < |out| ==> out[i].entry != out[j].entry)
      && (forall i, j :: 0 <= i < j < |out| ==> DayNumber(out[i].entry.day) <= DayNumber(out[j].entry.day))
      && (forall i :: 0 <= i < |out| ==> out[i].userName == OwnerName(st, out[i].entry.userId))
  {
    if !HasSessionId(caller) {
      return Unauthorized;
    }
    if month.None? || year.None? {
      return BadRequest(MissingMonthMessage);
    }
    var window := MonthWindow(st.ledger, year.value, month.value);
    var ordered := SortByDay(window);
    var out := seq(|ordered|, i requires 0 <= i < |ordered| => Listed(ordered[i], OwnerName(st, ordered[i].userId)));
    assert forall c :: c in Entries(out) <==> c in ordered by {
      forall c ensures c in Entries(out) <==> c in ordered {
        if c in ordered {
          var i :| 0 <= i < |ordered| && ordered[i] == c;
          assert out[i] in out;
        }
      }
    }
    r := Ok(CheckInList(out));
  }

  /** Order a set of rows by day, each row once (`orderBy: { date: 'asc' }`). */
  method SortByDay(s: set<CheckIn>) returns (out: seq<CheckIn>)
    ensures forall c :: c in out <==> c in s
    ensures forall i, j :: 0 <= i < j < |out| ==> out[i] != out[j]
    ensures forall i, j :: 0 <= i < j < |out| ==> DayNumber(out[i].day) <= DayNumber(out[j].day)
  {
    out := SortByKey(s, (c: CheckIn) => DayNumber(c.day));
  }

  /** Selection sort of a finite set by an integer key; rows with equal keys come in any order. */
  method SortByKey<T>(s: set<T>, key: T -> int) returns (out: seq<T>)
    ensures forall c :: c in out <==> c in s
    ensures forall i, j :: 0 <= i < j < |out| ==> out[i] != out[j]
    ensures forall i, j :: 0 <= i < j < |out| ==> key(out[i]) <= key(out[j])
  {
    var rest := s;
    out := [];
    while rest != {}
      invariant forall c :: c in s <==> c in out || c in rest
      invariant forall c :: c in out ==> c !in rest
      invariant forall i, j :: 0 <= i < j < |out| ==> out[i] != out[j]
      invariant forall i, j :: 0 <= i < j < |out| ==> key(out[i]) <= key(out[j])
      invariant forall i, c :: 0 <= i < |out| && c in rest ==> key(out[i]) <= key(c)
      decreases |rest|
    {
      LeastExists(rest, key);
      var c :| c in rest && forall d :: d in rest ==> key(c) <= key(d);
      out := out + [c];
      rest := rest - {c};
    }
  }

  /** A non-empty finite set has an element of least key. */
  lemma {:induction false} LeastExists<T>(s: set<T>, key: T -> int)
    requires s != {}
    ensures exists c :: c in s && forall d :: d in s ==> key(c) <= key(d)
    decreases |s|
  {
    var x :| x in s;
    var others := s - {x};
    if others == {} {
      assert forall d :: d in s ==> d == x || d in others;
    } else {
      LeastExists(others, key);
      var m :| m in others && forall d :: d in others ==> key(m) <= key(d);
      if key(x) <= key(m) {
        assert forall d :: d in s ==> key(x) <= key(d);
      } else {
        assert forall d :: d in s ==> key(m) <= key(d);
      }
    }
  }

  // ---------------------------------------------------------------------
  // Properties
  // ---------------------------------------------------------------------

  /** A successful check-in keeps every store constraint. */
  lemma PostKeepsValid(st: Store, caller: Option<Session>, time: Option<string>, today: Date)
    requires Valid(st) && ValidDate(today)
    ensures Valid(Post(st, caller, time, today).state)
  {
  }

  /** Removing a check-in keeps every store constraint. */
  lemma DeleteKeepsValid(st: Store, caller: Option<Session>, date: Option<Date>, today: Date)
    requires Valid(st)
    ensures Valid(Delete(st, caller, date, today).state)
  {
  }

  /** After a successful check-in, a second one the same day is refused and changes nothing. */
  lemma SecondPostIsDuplicate(st: Store, caller: Option<Session>, t1: Option<string>, t2: Option<string>, today: Date)
    requires Post(st, caller, t1, today).response.status == 200
    ensures var st1 := Post(st, caller, t1, today).state;
      Post(st1, caller, t2, today) == Handled(BadRequest(DuplicateMessage), st1)
  {
    var st1 := Post(st, caller, t1, today).state;
    var c := Post(st, caller, t1, today).response.payload.checkIn.entry;
    assert c in st1.ledger;
  }

  /** A repeated delete of the same day fails, and leaves the ledger as the first left it. */
  lemma SecondDeleteFails(st: Store, caller: Option<Session>, date: Option<Date>, today: Date)
    requires Delete(st, caller, date, today).response.status == 200
    ensures var st1 := Delete(st, caller, date, today).state;
      Delete(st1, caller, date, today) == Handled(Response(500, ErrorMessage(DeleteFailedMessage)), st1)
  {
  }

  /** Checking in and then undoing today's check-in restores the ledger. */
  lemma UndoRestoresLedger(st: Store, caller: Option<Session>, time: Option<string>, today: Date)
    requires Post(st, caller, time, today).response.status == 200
    ensures var st1 := Post(st, caller, time, today).state;
      var h := Delete(st1, caller, None, today);
      h.response.status == 200 && h.state == st
  {
    var st1 := Post(st, caller, time, today).state;
    var c := Post(st, caller, time, today).response.payload.checkIn.entry;
    var h := Delete(st1, caller, None, today);
    assert c in st1.ledger;
    assert h.state.ledger == st.ledger;
  }

  /** With one row per key, a successful delete removes exactly one row. */
  lemma DeleteRemovesOneRow(st: Store, caller: Option<Session>, date: Option<Date>, today: Date)
    requires OneCheckInPerDay(st.ledger)
    requires Delete(st, caller, date, today).response.status == 200
    ensures var after := Delete(st, caller, date, today).state.ledger;
      exists c :: c in st.ledger && c !in after && st.ledger == after + {c}
  {
    var uid := caller.value.userId;
    var day := date.GetOr(today);
    var after := Delete(st, caller, date, today).state.ledger;
    var c :| c in st.ledger && c.userId == uid && c.day == day;
    assert st.ledger == after + {c};
  }

  /** The listing window holds exactly the valid days of the requested calendar month. */
  lemma WindowIsCalendarMonth(ledger: set<CheckIn>, year: int, month: int, c: CheckIn)
    requires LedgerDaysValid(ledger) && 1 <= month <= 12
    ensures c in MonthWindow(ledger, year, month) <==>
      c in ledger && c.day.year == MakeFullYear(year) && c.day.month == month
  {
    if c in ledger {
      MonthWindowExact(c.day, MakeFullYear(year), month);
    }
  }

  /** A valid day is in the window of (year, month) iff it is a day of that month of MakeFullYear(year). */
  lemma DayInWindow(d: Date, year: int, month: int)
    requires ValidDate(d) && 1 <= month <= 12
    ensures InMonthWindow(d, year, month) <==> d.year == MakeFullYear(year) && d.month == month
  {
    MonthWindowExact(d, MakeFullYear(year), month);
  }

  /** Inside one window, ordering by day number is ordering by day of the month. */
  lemma WindowOrderIsDayOfMonthOrder(ledger: set<CheckIn>, year: int, month: int, a: CheckIn, b: CheckIn)
    requires LedgerDaysValid(ledger) && 1 <= month <= 12
    ensures a in MonthWindow(ledger, year, month) && b in MonthWindow(ledger, year, month) ==>
      (DayNumber(a.day) <= DayNumber(b.day) <==> a.day.day <= b.day.day)
  {
    if a in MonthWindow(ledger, year, month) && b in MonthWindow(ledger, year, month) {
      WindowIsCalendarMonth(ledger, year, month, a);
      WindowIsCalendarMonth(ledger, year, month, b);
      DayNumberOrdersDaysOfAMonth(a.day, b.day);
    }
  }
}

=== FILE: dates.dfy ===
/**
 * Calendar arithmetic of the proleptic Gregorian calendar, in the form the
 * ECMAScript `Date` object uses it (MakeDay, section 21.4.1 of ECMA-262).
 *
 * A `Date` is a (year, month, day) triple with a 1-based month.  Its time
 * value, counted in whole days since 1970-01-01, is `DayNumber`; the ledger
 * compares and orders days by that number, as the store compares the
 * midnight timestamps it keeps.
 */
module Dates {

  datatype Date = Date(year: int, month: int, day: int)

  predicate IsLeapYear(y: int) {
    y % 4 == 0 && (y % 100 != 0 || y % 400 == 0)
  }

  function DaysInYear(y: int): int {
    if IsLeapYear(y) then 366 else 365
  }

  /** Number of days of month `m` (1..12) of year `y`. */
  function DaysInMonth(y: int, m: int): (n: int)
    requires 1 <= m <= 12
    ensures 28 <= n <= 31
  {
    if m == 2 then (if IsLeapYear(y) then 29 else 28)
    else if m == 4 || m == 6 || m == 9 || m == 11 then 30
    else 31
  }

  /** A triple that names an existing calendar day. */
  predicate ValidDate(d: Date) {
    1 <= d.month <= 12 && 1 <= d.day <= DaysInMonth(d.year, d.month)
  }

  /** Days of year `y` that precede the first day of month `m`; m == 13 gives the whole year. */
  function DaysBeforeMonth(y: int, m: int): (n: int)
    requires 1 <= m <= 13
    ensures 0 <= n <= 366
  {
    var common :=
      if m <= 6 then
        (if m == 1 then 0 else if m == 2 then 31 else if m == 3 then 59
         else if m == 4 then 90 else if m == 5 then 120 else 151)
      else
        (if m == 7 then 181 else if m == 8 then 212 else if m == 9 then 243
         else if m == 10 then 273 else if m == 11 then 304 else if m == 12 then 334 else 365);
    if IsLeapYear(y) && m > 2 then common + 1 else common
  }

  /** Days from 0001-01-01 to the first day of year `y` (negative before year 1). */
  function DaysBeforeYear(y: int): int {
    var p := y - 1;
    365 * p + p / 4 - p / 100 + p / 400
  }

  /** The day number of 1970-01-01 counted from 0001-01-01. */
  const EpochOffset: int := 719162

  /**
   * ECMAScript MakeDay(year, month, date) with a 0-based month that may lie
   * outside 0..11: the month overflows into the year, and the date is added
   * to the first day of that month, so date 0 is the day before it.
   */
  function MakeDay(year: int, month: int, date: int): int {
    var ym := year + month / 12;
    var mn := month % 12;
    DaysBeforeYear(ym) + DaysBeforeMonth(ym, mn + 1) + date - 1 - EpochOffset
  }

  /** The time value, in days, of local midnight of `d`. */
  function DayNumber(d: Date): int {
    MakeDay(d.year, d.month - 1, d.day)
  }

  /**
   * The year the Date constructor uses for `new Date(y, m, d)`: years 0..99
   * are taken as 1900..1999.
   */
  function MakeFullYear(y: int): int {
    if 0 <= y <= 99 then 1900 + y else y
  }

  /** The number of a month counted from January of year 0. */
  function MonthIndex(y: int, m: int): int {
    12 * y + m - 1
  }

  /** The day number of the first day of the month with index `k`. */
  function MonthStart(k: int): int {
    DaysBeforeYear(k / 12) + DaysBeforeMonth(k / 12, k % 12 + 1) - EpochOffset
  }

  // ---------------------------------------------------------------------
  // Lemmas
  // ---------------------------------------------------------------------

  /** The cumulative month table agrees with `DaysInMonth`. */
  lemma DaysBeforeMonthStep(y: int, m: int)
    requires 1 <= m <= 12
    ensures DaysBeforeMonth(y, m + 1) == DaysBeforeMonth(y, m) + DaysInMonth(y, m)
  {
  }

  /** The twelve months of a year add up to the length of the year. */
  lemma YearLength(y: int)
    ensures DaysBeforeMonth(y, 13) == DaysInYear(y)
  {
  }

  lemma DivStep4(p: int)
    ensures (p + 1) / 4 - p / 4 == if (p + 1) % 4 == 0 then 1 else 0
  {
  }

  lemma DivStep100(p: int)
    ensures (p + 1) / 100 - p / 100 == if (p + 1) % 100 == 0 then 1 else 0
  {
  }

  lemma DivStep400(p: int)
    ensures (p + 1) / 400 - p / 400 == if (p + 1) % 400 == 0 then 1 else 0
  {
  }

  lemma DivisibleBy400(y: int)
    requires y % 400 == 0
    ensures y % 100 == 0
  {
    assert y == 100 * (4 * (y / 400));
  }

  lemma DivisibleBy100(y: int)
    requires y % 100 == 0
    ensures y % 4 == 0
  {
    assert y == 4 * (25 * (y / 100));
  }

  /** The closed form for the days before a year steps by the length of the year. */
  lemma DaysBeforeYearStep(y: int)
    ensures DaysBeforeYear(y + 1) == DaysBeforeYear(y) + DaysInYear(y)
  {
    var p := y - 1;
    DivStep4(p);
    DivStep100(p);
    DivStep400(p);
    var a := if y % 4 == 0 then 1 else 0;
    var b := if y % 100 == 0 then 1 else 0;
    var c := if y % 400 == 0 then 1 else 0;
    assert DaysBeforeYear(y + 1) - DaysBeforeYear(y) == 365 + a - b + c;
    if y % 400 == 0 {
      DivisibleBy400(y);
      DivisibleBy100(y);
    } else if y % 100 == 0 {
      DivisibleBy100(y);
    }
    assert a - b + c == if IsLeapYear(y) then 1 else 0;
  }

  /** 1970-01-01 is day 0, as in ECMAScript. */
  lemma UnixEpochIsDayZero()
    ensures DayNumber(Date(1970, 1, 1)) == 0
  {
  }

  /** MakeDay depends on year and month only through the month index `k`. */
  lemma MakeDayByMonthIndex(year: int, month: int, date: int, k: int)
    requires k == 12 * year + month
    ensures MakeDay(year, month, date) == MonthStart(k) + date - 1
  {
    assert k / 12 == year + month / 12 && k % 12 == month % 12;
  }

  /** The month after month `k` starts exactly `DaysInMonth` days after it. */
  lemma MonthStartStep(k: int)
    ensures MonthStart(k + 1) == MonthStart(k) + DaysInMonth(k / 12, k % 12 + 1)
  {
    if k % 12 < 11 {
      MonthStartStepWithinYear(k);
    } else {
      MonthStartStepAcrossYear(k);
    }
  }

  lemma MonthStartStepWithinYear(k: int)
    requires k % 12 < 11
    ensures MonthStart(k + 1) == MonthStart(k) + DaysInMonth(k / 12, k % 12 + 1)
  {
    var y, r := k / 12, k % 12;
    assert (k + 1) / 12 == y && (k + 1) % 12 == r + 1;
    DaysBeforeMonthStep(y, r + 1);
  }

  lemma MonthStartStepAcrossYear(k: int)
    requires k % 12 == 11
    ensures MonthStart(k + 1) == MonthStart(k) + DaysInMonth(k / 12, k % 12 + 1)
  {
    var y := k / 12;
    assert (k + 1) / 12 == y + 1 && (k + 1) % 12 == 0;
    DaysBeforeYearStep(y);
    YearLength(y);
  }

  /** The month after month `y`-`m` starts `DaysInMonth(y, m)` days after it. */
  lemma NextMonthStart(y: int, m: int)
    requires 1 <= m <= 12
    ensures MonthStart(MonthIndex(y, m) + 1) == MonthStart(MonthIndex(y, m)) + DaysInMonth(y, m)
  {
    var k := MonthIndex(y, m);
    assert k / 12 == y && k % 12 + 1 == m;
    MonthStartStep(k);
  }

  /** Later months start no earlier. */
  lemma {:induction false} MonthStartMonotone(j: int, k: int)
    requires j <= k
    ensures MonthStart(j) <= MonthStart(k)
    decreases k - j
  {
    if j < k {
      MonthStartMonotone(j, k - 1);
      MonthStartStep(k - 1);
    }
  }

  /** A day's number counts from the start of its month. */
  lemma DayNumberByMonthIndex(d: Date)
    requires 1 <= d.month <= 12
    ensures DayNumber(d) == MonthStart(MonthIndex(d.year, d.month)) + d.day - 1
  {
    MakeDayByMonthIndex(d.year, d.month - 1, d.day, MonthIndex(d.year, d.month));
  }

  /** A valid day lies inside the day range of its own month. */
  lemma DayWithinItsMonth(d: Date)
    requires ValidDate(d)
    ensures MonthStart(MonthIndex(d.year, d.month)) <= DayNumber(d)
    ensures DayNumber(d) < MonthStart(MonthIndex(d.year, d.month) + 1)
  {
    DayNumberByMonthIndex(d);
    NextMonthStart(d.year, d.month);
  }

  /**
   * Day 0 of the month after `m` is the last day of `m`: MakeDay(y, m, 0)
   * with the 1-based month `m` used as a 0-based one.
   */
  lemma DayZeroIsLastDayOfPreviousMonth(y: int, m: int)
    requires 1 <= m <= 12
    ensures MakeDay(y, m, 0) == DayNumber(Date(y, m, DaysInMonth(y, m)))
  {
    var k := MonthIndex(y, m);
    var last := Date(y, m, DaysInMonth(y, m));
    DayNumberByMonthIndex(last);
    MakeDayByMonthIndex(y, m, 0, k + 1);
    NextMonthStart(y, m);
  }

  /** The first and last day of a month, as month starts. */
  lemma MonthWindowBounds(y: int, m: int)
    requires 1 <= m <= 12
    ensures MakeDay(y, m - 1, 1) == MonthStart(MonthIndex(y, m))
    ensures MakeDay(y, m, 0) == MonthStart(MonthIndex(y, m) + 1) - 1
  {
    var k := MonthIndex(y, m);
    MakeDayByMonthIndex(y, m - 1, 1, k);
    MakeDayByMonthIndex(y, m, 0, k + 1);
  }

  /** Months 1..12 give each (year, month) its own index. */
  lemma MonthIndexInjective(y1: int, m1: int, y2: int, m2: int)
    requires 1 <= m1 <= 12 && 1 <= m2 <= 12
    ensures MonthIndex(y1, m1) == MonthIndex(y2, m2) <==> y1 == y2 && m1 == m2
  {
  }

  lemma DayInsideItsWindow(d: Date)
    requires ValidDate(d)
    ensures MakeDay(d.year, d.month - 1, 1) <= DayNumber(d) <= MakeDay(d.year, d.month, 0)
  {
    MonthWindowBounds(d.year, d.month);
    DayWithinItsMonth(d);
  }

  lemma DayBeforeWindow(d: Date, y: int, m: int)
    requires ValidDate(d) && 1 <= m <= 12
    requires MonthIndex(d.year, d.month) < MonthIndex(y, m)
    ensures DayNumber(d) < MakeDay(y, m - 1, 1)
  {
    MonthWindowBounds(y, m);
    DayWithinItsMonth(d);
    MonthStartMonotone(MonthIndex(d.year, d.month) + 1, MonthIndex(y, m));
  }

  lemma DayAfterWindow(d: Date, y: int, m: int)
    requires ValidDate(d) && 1 <= m <= 12
    requires MonthIndex(y, m) < MonthIndex(d.year, d.month)
    ensures MakeDay(y, m, 0) < DayNumber(d)
  {
    MonthWindowBounds(y, m);
    DayWithinItsMonth(d);
    MonthStartMonotone(MonthIndex(y, m) + 1, MonthIndex(d.year, d.month));
  }

  /**
   * The window [MakeDay(y, m-1, 1), MakeDay(y, m, 0)] holds exactly the
   * valid days of month `m` of year `y`.
   */
  lemma MonthWindowExact(d: Date, y: int, m: int)
    requires ValidDate(d) && 1 <= m <= 12
    ensures MakeDay(y, m - 1, 1) <= DayNumber(d) <= MakeDay(y, m, 0)
        <==> d.year == y && d.month == m
  {
    MonthIndexInjective(d.year, d.month, y, m);
    if d.year == y && d.month == m {
      DayInsideItsWindow(d);
    } else if MonthIndex(d.year, d.month) < MonthIndex(y, m) {
      DayBeforeWindow(d, y, m);
    } else {
      DayAfterWindow(d, y, m);
    }
  }

  /** Within one month, day numbers differ exactly as the days of the month do. */
  lemma DayNumberOrdersDaysOfAMonth(a: Date, b: Date)
    requires ValidDate(a) && ValidDate(b)
    requires a.year == b.year && a.month == b.month
    ensures DayNumber(a) - DayNumber(b) == a.day - b.day
  {
    DayNumberByMonthIndex(a);
    DayNumberByMonthIndex(b);
  }
}

=== FILE: forgot_password_route.dfy ===
/**
 * POST /api/auth/forgot-password: mint a password-reset token for the user
 * with the given email.  The token string (a random UUID) is passed in as
 * `newToken`; delivering the reset link is not modelled.
 */
module ForgotPasswordRoute {
  import opened Wrappers
  import opened Schema
  import opened Http

  const EmailRequiredMessage: string := "Email required"
  const NoSuchUserMessage: string := "No user with that email"

  /** How long a reset token stays usable: 30 minutes, in milliseconds. */
  const TokenLifetime: int := 30 * 60 * 1000

  function ForgotPassword(st: Store, email: Option<string>, newToken: string, now: int): (h: Handled)
    requires EmailsUnique(st.users)
    requires newToken !in st.tokens
    ensures h.state.users == st.users && h.state.ledger == st.ledger
    ensures !Truthy(email) ==> h.response == BadRequest(EmailRequiredMessage) && h.state == st
    ensures Truthy(email) && !EmailTaken(st.users, email.value) ==>
      h.response == Response(404, ErrorMessage(NoSuchUserMessage)) && h.state == st
    ensures h.response.status == 200 <==> Truthy(email) && EmailTaken(st.users, email.value)
    ensures h.response.status == 200 ==>
      && h.response.payload == Succeeded
      && newToken in h.state.tokens
      && h.state.tokens == st.tokens[newToken := h.state.tokens[newToken]]
      && h.state.tokens[newToken].userId in st.users
      && st.users[h.state.tokens[newToken].userId].email == email.value
      && h.state.tokens[newToken].expires == now + TokenLifetime
  {
    if !Truthy(email) then Handled(BadRequest(EmailRequiredMessage), st)
    else if !EmailTaken(st.users, email.value) then Handled(Response(404, ErrorMessage(NoSuchUserMessage)), st)
    else
      var id :| id in st.users && st.users[id].email == email.value;
      var token := ResetToken(id, now + TokenLifetime);
      Handled(Ok(Succeeded), st.(tokens := st.tokens[newToken := token]))
  }

  /** Minting a token keeps every store constraint. */
  lemma ForgotPasswordKeepsValid(st: Store, email: Option<string>, newToken: string, now: int)
    requires Valid(st) && newToken !in st.tokens
    ensures Valid(ForgotPassword(st, email, newToken, now).state)
  {
  }
}

=== FILE: gym_calendar.dfy ===
/**
 * The pure logic of the shared gym calendar: the month it shows and the
 * navigation between months, the day cells of that month, the listing
 * query it sends, and the grouping of the fetched check-ins by day.
 */
module GymCalendar {
  import opened Dates
  import opened Schema
  import opened Http
  import CheckInRoute

  /** The shown month: `getFullYear()` and the zero-based `getMonth()` of the current date. */
  datatype MonthView = MonthView(year: int, month0: int)

  predicate ValidView(v: MonthView) {
    0 <= v.month0 <= 11
  }

  /**
   * The year and month of `new Date(year, month0, 1)`: a year 0..99 is read as
   * 1900..1999 first, then a month outside 0..11 carries into the year.
   */
  function FirstOfMonth(year: int, month0: int): (v: MonthView)
    ensures ValidView(v)
    ensures MonthIndex(v.year, v.month0 + 1) == MonthIndex(MakeFullYear(year), month0 + 1)
  {
    var y := MakeFullYear(year);
    MonthView(y + month0 / 12, month0 % 12)
  }

  /** `previousMonth` as written. */
  function PreviousMonthAsWritten(v: MonthView): MonthView {
    FirstOfMonth(v.year, v.month0 - 1)
  }

  /** `nextMonth` as written. */
  function NextMonthAsWritten(v: MonthView): MonthView {
    FirstOfMonth(v.year, v.month0 + 1)
  }

  /** The month before `v`, without re-reading the year. */
  function PreviousMonth(v: MonthView): (p: MonthView)
    requires ValidView(v)
    ensures ValidView(p)
    ensures MonthIndex(p.year, p.month0 + 1) == MonthIndex(v.year, v.month0 + 1) - 1
  {
    if v.month0 == 0 then MonthView(v.year - 1, 11) else MonthView(v.year, v.month0 - 1)
  }

  /** The month after `v`, without re-reading the year. */
  function NextMonth(v: MonthView): (n: MonthView)
    requires ValidView(v)
    ensures ValidView(n)
    ensures MonthIndex(n.year, n.month0 + 1) == MonthIndex(v.year, v.month0 + 1) + 1
  {
    if v.month0 == 11 then MonthView(v.year + 1, 0) else MonthView(v.year, v.month0 + 1)
  }

  /** The first `n` days of month `m` of year `y`. */
  function Cells(y: int, m: int, n: nat): (cells: seq<Date>)
    ensures |cells| == n
    ensures forall i :: 0 <= i < n ==> cells[i] == Date(y, m, i + 1)
  {
    if n == 0 then [] else Cells(y, m, n - 1) + [Date(y, m, n)]
  }

  /** `eachDayOfInterval(startOfMonth, endOfMonth)`: the days of the shown month. */
  function MonthCells(v: MonthView): (cells: seq<Date>)
    requires ValidView(v)
    ensures |cells| == DaysInMonth(v.year, v.month0 + 1)
    ensures forall i :: 0 <= i < |cells| ==>
      ValidDate(cells[i]) && cells[i].year == v.year && cells[i].month == v.month0 + 1 && cells[i].day == i + 1
  {
    Cells(v.year, v.month0 + 1, DaysInMonth(v.year, v.month0 + 1))
  }

  /** `getCheckInsForDay`: the fetched check-ins dated `day`, in fetched order. */
  function ForDay(list: seq<Listed>, day: Date): (r: seq<Listed>)
    ensures |r| <= |list|
  {
    if list == [] then []
    else (if list[0].entry.day == day then [list[0]] else []) + ForDay(list[1..], day)
  }

  /** The number of check-in badges the cells show altogether. */
  function TotalShown(list: seq<Listed>, cells: seq<Date>): nat {
    if cells == [] then 0 else |ForDay(list, cells[0])| + TotalShown(list, cells[1..])
  }

  /** Every fetched check-in is dated inside the shown month. */
  predicate AllInMonth(list: seq<Listed>, v: MonthView) {
    forall x :: x in list ==>
      ValidDate(x.entry.day) && x.entry.day.year == v.year && x.entry.day.month == v.month0 + 1
  }

  // ---------------------------------------------------------------------
  // Properties
  // ---------------------------------------------------------------------

  /** The corrected navigation is undone by the opposite step. */
  lemma NextUndoesPrevious(v: MonthView)
    requires ValidView(v)
    ensures NextMonth(PreviousMonth(v)) == v
  {
  }

  lemma PreviousUndoesNext(v: MonthView)
    requires ValidView(v)
    ensures PreviousMonth(NextMonth(v)) == v
  {
  }

  /** Outside the years 0..99 the navigation as written is the corrected one. */
  lemma AsWrittenAgreesOutsideTwoDigitYears(v: MonthView)
    requires ValidView(v) && !(0 <= v.year <= 99)
    ensures PreviousMonthAsWritten(v) == PreviousMonth(v)
    ensures NextMonthAsWritten(v) == NextMonth(v)
  {
  }

  /** Inside the years 0..99 a step as written lands nineteen centuries later. */
  lemma AsWrittenJumpsInTwoDigitYears(v: MonthView)
    requires ValidView(v) && 0 <= v.year <= 99
    ensures NextMonthAsWritten(v).year == NextMonth(v).year + 1900
    ensures PreviousMonthAsWritten(v).year == PreviousMonth(v).year + 1900
  {
  }

  /** Going back from January of the year 100 and forward again shows January 2000. */
  lemma BackAndForthFromYear100()
    ensures PreviousMonthAsWritten(MonthView(100, 0)) == MonthView(99, 11)
    ensures NextMonthAsWritten(PreviousMonthAsWritten(MonthView(100, 0))) == MonthView(2000, 0)
  {
  }

  /** The cells are exactly the valid days of the shown month. */
  lemma CellsAreTheMonthsDays(v: MonthView, d: Date)
    requires ValidView(v)
    ensures d in MonthCells(v) <==> ValidDate(d) && d.year == v.year && d.month == v.month0 + 1
  {
    var cells := MonthCells(v);
    if ValidDate(d) && d.year == v.year && d.month == v.month0 + 1 {
      assert cells[d.day - 1] == d;
    }
  }

  /** The first cell is `startOfMonth`: day 1 of the zero-based month `month0`. */
  lemma FirstCellStartsTheMonth(v: MonthView)
    requires ValidView(v)
    ensures DayNumber(MonthCells(v)[0]) == MakeDay(v.year, v.month0, 1)
  {
    assert MonthCells(v)[0] == Date(v.year, v.month0 + 1, 1);
  }

  /** The last cell is `endOfMonth`: day 0 of the following zero-based month. */
  lemma LastCellEndsTheMonth(v: MonthView)
    requires ValidView(v)
    ensures var cells := MonthCells(v); DayNumber(cells[|cells| - 1]) == MakeDay(v.year, v.month0 + 1, 0)
  {
    var m := v.month0 + 1;
    var cells := MonthCells(v);
    assert cells[|cells| - 1] == Date(v.year, m, DaysInMonth(v.year, m));
    DayZeroIsLastDayOfPreviousMonth(v.year, m);
  }

  /** Neighbouring cells are one day apart, so the cells are every day from the first to the last. */
  lemma CellsAreConsecutive(v: MonthView, i: int)
    requires ValidView(v) && 0 < i < |MonthCells(v)|
    ensures DayNumber(MonthCells(v)[i]) == DayNumber(MonthCells(v)[i - 1]) + 1
  {
    var cells := MonthCells(v);
    DayNumberOrdersDaysOfAMonth(cells[i], cells[i - 1]);
  }

  /**
   * Outside the years 0..99 a valid day falls in the window of the
   * calendar's query (`month` = month0 + 1, `year` = the shown year) exactly
   * when it has a cell.
   */
  lemma QueryMatchesCells(v: MonthView, d: Date)
    requires ValidView(v) && !(0 <= v.year <= 99) && ValidDate(d)
    ensures CheckInRoute.InMonthWindow(d, v.year, v.month0 + 1) <==> d in MonthCells(v)
  {
    MonthWindowExact(d, v.year, v.month0 + 1);
    CellsAreTheMonthsDays(v, d);
  }

  /**
   * Inside the years 0..99 the server reads the query's year as 1900 + year:
   * the window holds the days of the same month 1900 years later, and no day
   * that has a cell.
   */
  lemma TwoDigitYearQueryFetchesOtherCentury(v: MonthView, d: Date)
    requires ValidView(v) && 0 <= v.year <= 99 && ValidDate(d)
    ensures CheckInRoute.InMonthWindow(d, v.year, v.month0 + 1) <==> d in MonthCells(MonthView(1900 + v.year, v.month0))
    ensures d in MonthCells(v) ==> !CheckInRoute.InMonthWindow(d, v.year, v.month0 + 1)
  {
    CheckInRoute.DayInWindow(d, v.year, v.month0 + 1);
    CellsAreTheMonthsDays(MonthView(1900 + v.year, v.month0), d);
    CellsAreTheMonthsDays(v, d);
  }

  /** So the rows the server returns for the query are the ledger's rows dated in a cell. */
  lemma QueryFetchesTheCells(ledger: set<CheckIn>, v: MonthView, c: CheckIn)
    requires LedgerDaysValid(ledger) && ValidView(v) && !(0 <= v.year <= 99) && c in ledger
    ensures c in CheckInRoute.MonthWindow(ledger, v.year, v.month0 + 1) <==> c.day in MonthCells(v)
  {
    QueryMatchesCells(v, c.day);
  }

  /** A badge for `x` appears in cell `i` exactly when `i` is its day of the month, less one. */
  lemma CheckInInExactlyOneCell(list: seq<Listed>, v: MonthView, x: Listed, i: int)
    requires ValidView(v) && x in list && AllInMonth(list, v)
    requires 0 <= i < |MonthCells(v)|
    ensures x in ForDay(list, MonthCells(v)[i]) <==> i == x.entry.day.day - 1
  {
    ForDayMembers(list, MonthCells(v)[i], x);
  }

  /** Badges over the cells, counted once per occurrence of a check-in's day among the cells. */
  lemma {:induction false} TotalShownCons(x: Listed, rest: seq<Listed>, cells: seq<Date>)
    ensures TotalShown([x] + rest, cells) == multiset(cells)[x.entry.day] + TotalShown(rest, cells)
  {
    if cells != [] {
      TotalShownCons(x, rest, cells[1..]);
      assert ([x] + rest)[0] == x && ([x] + rest)[1..] == rest;
      assert cells == [cells[0]] + cells[1..];
    }
  }

  /** Each valid day of the month occurs once among the first `n` cells when it is at most `n`. */
  lemma {:induction false} CellCount(y: int, m: int, n: nat, d: Date)
    requires d.year == y && d.month == m
    ensures multiset(Cells(y, m, n))[d] == if 1 <= d.day <= n then 1 else 0
  {
    if n > 0 {
      var prev, last := Cells(y, m, n - 1), Date(y, m, n);
      CellCount(y, m, n - 1, d);
      assert multiset(Cells(y, m, n)) == multiset(prev) + multiset{last};
      assert last == d <==> d.day == n;
    }
  }

  /** A day's badges are exactly the fetched check-ins dated that day. */
  lemma {:induction false} ForDayMembers(list: seq<Listed>, day: Date, x: Listed)
    ensures x in ForDay(list, day) <==> x in list && x.entry.day == day
  {
    if list != [] {
      ForDayMembers(list[1..], day, x);
      assert list == [list[0]] + list[1..];
    }
  }

  /** Each check-in dated `day` is shown as often as it was fetched, and no other is shown. */
  lemma {:induction false} ForDayCounts(list: seq<Listed>, day: Date, x: Listed)
    ensures multiset(ForDay(list, day))[x] == if x.entry.day == day then multiset(list)[x] else 0
  {
    if list != [] {
      var head := if list[0].entry.day == day then [list[0]] else [];
      var rest := ForDay(list[1..], day);
      ForDayCounts(list[1..], day, x);
      assert ForDay(list, day) == head + rest;
      assert multiset(ForDay(list, day)) == multiset(head) + multiset(rest);
      assert list == [list[0]] + list[1..];
      assert multiset(list) == multiset{list[0]} + multiset(list[1..]);
    }
  }

  /**
   * Filtering distributes over concatenation, so a day's badges keep the
   * order the check-ins were fetched in.
   */
  lemma {:induction false} ForDayKeepsOrder(a: seq<Listed>, b: seq<Listed>, day: Date)
    ensures ForDay(a + b, day) == ForDay(a, day) + ForDay(b, day)
  {
    if a == [] {
      assert a + b == b;
    } else {
      var ab := a + b;
      assert ab[0] == a[0] && ab[1..] == a[1..] + b;
      ForDayKeepsOrder(a[1..], b, day);
      var head := if a[0].entry.day == day then [a[0]] else [];
      assert ForDay(ab, day) == head + ForDay(a[1..] + b, day);
      assert ForDay(a, day) == head + ForDay(a[1..], day);
    }
  }

  /** With nothing fetched, no cell shows a badge. */
  lemma {:induction false} NothingFetchedNothingShown(cells: seq<Date>)
    ensures TotalShown([], cells) == 0
  {
    if cells != [] {
      NothingFetchedNothingShown(cells[1..]);
    }
  }

  /** Each check-in is counted once when its day occurs exactly once among the cells. */
  lemma {:induction false} CountedOnce(list: seq<Listed>, cells: seq<Date>)
    requires forall x :: x in list ==> multiset(cells)[x.entry.day] == 1
    ensures TotalShown(list, cells) == |list|
  {
    if list == [] {
      NothingFetchedNothingShown(cells);
    } else {
      var x, rest := list[0], list[1..];
      assert list == [x] + rest;
      CountedOnce(rest, cells);
      TotalShownCons(x, rest, cells);
      assert multiset(cells)[x.entry.day] == 1;
    }
  }

  /** When every fetched check-in is dated in the shown month, each is shown exactly once. */
  lemma EveryCheckInShownOnce(list: seq<Listed>, v: MonthView)
    requires ValidView(v) && AllInMonth(list, v)
    ensures TotalShown(list, MonthCells(v)) == |list|
  {
    var cells := MonthCells(v);
    forall x | x in list
      ensures multiset(cells)[x.entry.day] == 1
    {
      CellCount(v.year, v.month0 + 1, |cells|, x.entry.day);
    }
    CountedOnce(list, cells);
  }
}

=== FILE: http.dfy ===
/** The JSON responses the route handlers return. */
module Http {
  import opened Wrappers
  import opened Schema

  /** A check-in as returned to clients: the row joined with its owner's display name. */
  datatype Listed = Listed(entry: CheckIn, userName: Option<string>)

  /** The projection of a user the admin listing selects. */
  datatype UserSummary = UserSummary(id: string, name: Option<string>, email: string, role: string, createdAt: int)

  datatype Payload =
    | ErrorMessage(error: string)                       // { error }
    | Unhandled                                         // an exception the handler does not catch
    | Succeeded                                         // { success: true }
    | CreatedCheckIn(checkIn: Listed)                   // { checkIn }
    | CheckInList(checkIns: seq<Listed>)                // { checkIns }
    | PublicProfile(id: string, name: Option<string>, email: string)  // { user: { id, name, email } }
    | FullUser(id: string, user: User)                  // { user } with every column
    | UserList(users: set<UserSummary>)                 // { users }

  datatype Response = Response(status: int, payload: Payload)

  /** What a state-changing handler returns: the response and the store after it. */
  datatype Handled = Handled(response: Response, state: Store)

  const Unauthorized: Response := Response(401, ErrorMessage("Unauthorized"))
  const InternalError: Response := Response(500, ErrorMessage("Internal server error"))
  const Crash: Response := Response(500, Unhandled)

  function Ok(p: Payload): Response {
    Response(200, p)
  }

  function BadRequest(message: string): Response {
    Response(400, ErrorMessage(message))
  }

  /** The owner's display name, or null when the owner row is gone. */
  function OwnerName(st: Store, userId: string): Option<string> {
    if userId in st.users then st.users[userId].name else None
  }
}

=== FILE: register_route.dfy ===
/**
 * POST /api/auth/register: self-registration.  Name and email are always
 * supplied (the sign-up form marks both required); the new row's id is
 * passed in as `newId`.
 */
module RegisterRoute {
  import opened Wrappers
  import opened Schema
  import opened Http

  const DuplicateUserMessage: string := "User with that email or username already exists"

  /** `findFirst({ where: { OR: [{ email }, { name }] } })` finds a row. */
  predicate NameOrEmailTaken(users: map<string, User>, name: string, email: string) {
    exists id :: id in users && (users[id].email == email || users[id].name == Some(name))
  }

  /**
   * Refuse a taken email or name, then hash the password and create the row
   * with the role forced to "user".  Hashing a missing password throws; the
   * handler catches it as a 500.
   */
  function Register(st: Store, name: string, email: string, password: Option<string>,
                    birthday: Option<string>, weight: Option<string>, height: Option<string>,
                    newId: string, now: int): (h: Handled)
    requires newId !in st.users
    ensures h.state.tokens == st.tokens && h.state.ledger == st.ledger
    ensures NameOrEmailTaken(st.users, name, email) ==>
      h.response == BadRequest(DuplicateUserMessage) && h.state == st
    ensures !NameOrEmailTaken(st.users, name, email) && password.None? ==>
      h.response == InternalError && h.state == st
    ensures h.response.status == 200 <==> !NameOrEmailTaken(st.users, name, email) && password.Some?
    ensures h.response.status == 200 ==>
      && newId in h.state.users
      && h.state.users == st.users[newId := h.state.users[newId]]
      && var u := h.state.users[newId];
      && u.name == Some(name) && u.email == email
      && u.password == Hash(password.value)
      && u.role == UserRole
      && (Truthy(birthday) ==> u.birthday == birthday) && (!Truthy(birthday) ==> u.birthday == None)
      && (Truthy(weight) ==> u.weight == weight) && (!Truthy(weight) ==> u.weight == None)
      && (Truthy(height) ==> u.height == height) && (!Truthy(height) ==> u.height == None)
      && u.createdAt == now
      && h.response.payload == PublicProfile(newId, Some(name), email)
    ensures h.response.status != 200 ==> h.state == st
  {
    if NameOrEmailTaken(st.users, name, email) then Handled(BadRequest(DuplicateUserMessage), st)
    else if password.None? then Handled(InternalError, st)
    else
      var u := User(Some(name), email, Hash(password.value), UserRole,
                    NullIfEmpty(birthday), NullIfEmpty(weight), NullIfEmpty(height), now);
      Handled(Ok(PublicProfile(newId, u.name, u.email)), st.(users := st.users[newId := u]))
  }

  /** Registration keeps emails and display names unique when they were. */
  lemma RegisterKeepsIdentitiesUnique(st: Store, name: string, email: string, password: Option<string>,
                                      birthday: Option<string>, weight: Option<string>, height: Option<string>,
                                      newId: string, now: int)
    requires newId !in st.users
    requires EmailsUnique(st.users) && NamesUnique(st.users)
    ensures var users' := Register(st, name, email, password, birthday, weight, height, newId, now).state.users;
      EmailsUnique(users') && NamesUnique(users')
  {
  }

  /** Registration keeps every store constraint. */
  lemma RegisterKeepsValid(st: Store, name: string, email: string, password: Option<string>,
                           birthday: Option<string>, weight: Option<string>, height: Option<string>,
                           newId: string, now: int)
    requires newId !in st.users && Valid(st)
    ensures Valid(Register(st, name, email, password, birthday, weight, height, newId, now).state)
  {
    var h := Register(st, name, email, password, birthday, weight, height, newId, now);
    if h.response.status == 200 {
      assert !EmailTaken(st.users, email);
      AddUserKeepsEmailsUnique(st.users, newId, h.state.users[newId]);
    }
  }

  /** Registering the same email or name twice fails the second time and changes nothing. */
  lemma SecondRegistrationRefused(st: Store, name: string, email: string, password: Option<string>,
                                  birthday: Option<string>, weight: Option<string>, height: Option<string>,
                                  newId: string, now: int,
                                  name2: string, email2: string, password2: Option<string>, newId2: string, now2: int)
    requires newId !in st.users
    requires Register(st, name, email, password, birthday, weight, height, newId, now).response.status == 200
    requires name2 == name || email2 == email
    ensures var st1 := Register(st, name, email, password, birthday, weight, height, newId, now).state;
      newId2 !in st1.users ==>
      Register(st1, name2, email2, password2, None, None, None, newId2, now2)
        == Handled(BadRequest(DuplicateUserMessage), st1)
  {
    var st1 := Register(st, name, email, password, birthday, weight, height, newId, now).state;
    assert newId in st1.users;
    assert NameOrEmailTaken(st1.users, name2, email2);
  }
}

=== FILE: reset_password_route.dfy ===
/**
 * POST /api/auth/reset-password: consume a reset token and set the owner's
 * password.  Expiry is checked lazily, at use: a token whose expiry lies in
 * the past is refused but stays in the table.
 */
module ResetPasswordRoute {
  import opened Wrappers
  import opened Schema
  import opened Http
  import opened ForgotPasswordRoute

  const TokenAndPasswordRequiredMessage: string := "Token and password required"
  const InvalidTokenMessage: string := "Invalid or expired token"

  /** The token exists and has not expired (`expires < now` is the expired case). */
  predicate Usable(st: Store, token: string, now: int) {
    token in st.tokens && !(st.tokens[token].expires < now)
  }

  /**
   * Updating the owner's row throws when that row is gone; the handler does
   * not catch it, so the request fails with 500 and the token survives.
   */
  function ResetPassword(st: Store, token: Option<string>, password: Option<string>, now: int): (h: Handled)
    ensures h.state.ledger == st.ledger
    ensures !Truthy(token) || !Truthy(password) ==>
      h.response == BadRequest(TokenAndPasswordRequiredMessage) && h.state == st
    ensures Truthy(token) && Truthy(password) && !Usable(st, token.value, now) ==>
      h.response == BadRequest(InvalidTokenMessage) && h.state == st
    ensures (Truthy(token) && Truthy(password) && Usable(st, token.value, now)
             && st.tokens[token.value].userId !in st.users) ==> h.response == Crash && h.state == st
    ensures h.response.status == 200 <==>
      Truthy(token) && Truthy(password) && Usable(st, token.value, now)
      && st.tokens[token.value].userId in st.users
    ensures h.response.status == 200 ==>
      var owner := st.tokens[token.value].userId;
      && h.response.payload == Succeeded
      && h.state.users.Keys == st.users.Keys
      && h.state.users[owner] == st.users[owner].(password := Hash(password.value))
      && (forall id :: id in st.users && id != owner ==> h.state.users[id] == st.users[id])
      && h.state.tokens == st.tokens - {token.value}
    ensures h.response.status != 200 ==> h.state == st
  {
    if !Truthy(token) || !Truthy(password) then Handled(BadRequest(TokenAndPasswordRequiredMessage), st)
    else if !Usable(st, token.value, now) then Handled(BadRequest(InvalidTokenMessage), st)
    else
      var owner := st.tokens[token.value].userId;
      if owner !in st.users then Handled(Crash, st)
      else
        var u := st.users[owner].(password := Hash(password.value));
        Handled(Ok(Succeeded), st.(users := st.users[owner := u], tokens := st.tokens - {token.value}))
  }

  /** Resetting a password keeps every store constraint. */
  lemma ResetPasswordKeepsValid(st: Store, token: Option<string>, password: Option<string>, now: int)
    requires Valid(st)
    ensures Valid(ResetPassword(st, token, password, now).state)
  {
    var h := ResetPassword(st, token, password, now);
    if h.response.status == 200 {
      var owner := st.tokens[token.value].userId;
      assert forall id :: id in h.state.users ==> h.state.users[id].email == st.users[id].email;
    }
  }

  /** A token is single-use: the same request repeated after a success is refused. */
  lemma TokenIsSingleUse(st: Store, token: Option<string>, password: Option<string>, now: int, later: int)
    requires ResetPassword(st, token, password, now).response.status == 200
    ensures var st1 := ResetPassword(st, token, password, now).state;
      ResetPassword(st1, token, password, later) == Handled(BadRequest(InvalidTokenMessage), st1)
  {
  }

  /** A token can be used up to and including the instant it expires. */
  lemma UsableUntilExpiry(st: Store, token: string, now: int)
    requires token in st.tokens
    ensures Usable(st, token, now) <==> now <= st.tokens[token].expires
  {
  }

  /**
   * The whole flow: a token minted at `issued` resets the password when used
   * within 30 minutes and is refused, and kept, after that.
   */
  lemma ResetWithinThirtyMinutes(st: Store, email: string, newToken: string, issued: int,
                                 password: string, used: int)
    requires EmailsUnique(st.users) && newToken !in st.tokens
    requires ForgotPassword(st, Some(email), newToken, issued).response.status == 200
    requires newToken != "" && password != ""
    ensures var st1 := ForgotPassword(st, Some(email), newToken, issued).state;
      var h := ResetPassword(st1, Some(newToken), Some(password), used);
      && (used <= issued + TokenLifetime ==> h.response.status == 200)
      && (used > issued + TokenLifetime ==>
            h.response == BadRequest(InvalidTokenMessage) && newToken in h.state.tokens)
  {
  }

  /** Other tokens, including other tokens of the same user, survive a reset. */
  lemma ResetKeepsOtherTokens(st: Store, token: Option<string>, password: Option<string>, now: int, other: string)
    requires other in st.tokens
    requires token != Some(other)
    ensures var h := ResetPassword(st, token, password, now);
      other in h.state.tokens && h.state.tokens[other] == st.tokens[other]
  {
  }
}

=== FILE: schema.dfy ===
/**
 * The persistent state the route handlers work on, with the database's
 * constraints written out as predicates.
 *
 * The object-relational mapper and the relational store become one immutable
 * value: users keyed by id, password-reset tokens keyed by token string, and
 * the check-in ledger as a set of records.
 */
module Schema {
  import opened Wrappers
  import opened Dates

  /** A bcrypt digest, kept symbolically: the cost factor and the secret it was computed from. */
  datatype PasswordHash = Bcrypt(rounds: nat, secret: string)

  /** The cost factor every handler passes to bcrypt. */
  const BcryptRounds: nat := 12

  /** Hashing is deterministic here; the random salt is not modelled. */
  function Hash(password: string): PasswordHash {
    Bcrypt(BcryptRounds, password)
  }

  /** The role self-registration always assigns, and the default for admin-created users. */
  const UserRole: string := "user"
  const AdminRole: string := "admin"

  /**
   * A user row.  Birthday, weight and height are kept as the opaque values
   * the parsers produced; `createdAt` is the creation time in milliseconds.
   */
  datatype User = User(
    name: Option<string>,
    email: string,
    password: PasswordHash,
    role: string,
    birthday: Option<string>,
    weight: Option<string>,
    height: Option<string>,
    createdAt: int)

  /** A password-reset token row: its owner and its expiry time in milliseconds. */
  datatype ResetToken = ResetToken(userId: string, expires: int)

  /** A check-in row: owner, the (midnight-normalised) day and the optional time label. */
  datatype CheckIn = CheckIn(userId: string, day: Date, time: Option<string>)

  datatype Store = Store(
    users: map<string, User>,
    tokens: map<string, ResetToken>,
    ledger: set<CheckIn>)

  /** The authenticated caller as the session exposes it. */
  datatype Session = Session(userId: string, role: string)

  /** JavaScript truthiness of an optional string field: present and not empty. */
  predicate Truthy(s: Option<string>) {
    s.Some? && s.value != ""
  }

  /** `value || null`: an absent or empty string becomes null, anything else is kept. */
  function NullIfEmpty(s: Option<string>): Option<string> {
    if Truthy(s) then s else None
  }

  /** `session?.user?.id` is truthy. */
  predicate HasSessionId(caller: Option<Session>) {
    caller.Some? && caller.value.userId != ""
  }

  /** `session && session.user?.role === 'admin'`. */
  predicate IsAdmin(caller: Option<Session>) {
    caller.Some? && caller.value.role == AdminRole
  }

  /** The compound unique key (userId, date) of the check-in table. */
  predicate OneCheckInPerDay(ledger: set<CheckIn>) {
    forall a, b :: a in ledger && b in ledger && a.userId == b.userId && a.day == b.day ==> a == b
  }

  /** The unique key on the email column of the user table. */
  predicate EmailsUnique(users: map<string, User>) {
    forall i, j :: i in users && j in users && users[i].email == users[j].email ==> i == j
  }

  /** No two users share a display name (kept by registration, not by the table). */
  predicate NamesUnique(users: map<string, User>) {
    forall i, j :: i in users && j in users && users[i].name.Some? && users[i].name == users[j].name ==> i == j
  }

  /** Every ledger day is a real calendar day. */
  predicate LedgerDaysValid(ledger: set<CheckIn>) {
    forall c :: c in ledger ==> ValidDate(c.day)
  }

  /** The constraints every reachable store satisfies. */
  predicate Valid(st: Store) {
    OneCheckInPerDay(st.ledger) && EmailsUnique(st.users) && LedgerDaysValid(st.ledger)
  }

  /** Some user has this email. */
  predicate EmailTaken(users: map<string, User>, email: string) {
    exists id :: id in users && users[id].email == email
  }

  /** Adding a user whose email nobody has keeps emails unique. */
  lemma AddUserKeepsEmailsUnique(users: map<string, User>, id: string, u: User)
    requires EmailsUnique(users)
    requires id !in users
    requires !EmailTaken(users, u.email)
    ensures EmailsUnique(users[id := u])
  {
  }
}

=== FILE: wrappers.dfy ===
/** The optional-value datatype used for JSON fields that may be absent or null. */
module Wrappers {

  datatype Option<+T> = None | Some(value: T) {

    /** The value held, or `default` when there is none. */
    function GetOr(default: T): T {
      match this
      case Some(v) => v
      case None => default
    }
  }
}
